=== FILE: README.md ===
# Chat storage and gateway boundary, modelled in Dafny

This project models the core of a retrieval-augmented chat platform.

The storage tier is a service that keeps chat sessions and their messages:
- it creates, renames, marks as favorite, deletes, reads and lists sessions;
- it appends messages to a session and reads them back one page at a time;
- it validates request bodies and entity constraints;
- it turns every thrown error into a uniform HTTP error body.

In front of it sits an API gateway:
- it tags each request with a correlation id;
- it checks the external caller's `X-API-KEY` unless the path is public;
- it appends the internal service key `X-INTERNAL-KEY` before forwarding.

The storage tier's own filter admits `/api/` requests only when they carry that internal key.

The model is functional. The database is a value `Store.Store`:
- sessions by id;
- each session's thread of messages in insertion order;
- a fresh-id counter standing in for UUID generation;
- a clock standing in for `OffsetDateTime.now()` and for the readings of the entities' timestamp generators.

A write returns its entity as the service built it. The row is written when the transaction commits, and at that point `@CreationTimestamp` and `@UpdateTimestamp` stamp the timestamps again. So a later read shows the write's response with timestamps no earlier than the returned ones (`Mappers.SessionRestamped`, `Mappers.MessageRestamped`). How far the clock moves between the readings is a parameter of each write.

Each service call maps a store to an `Outcome`: the store after the transaction, and either the returned value or the thrown `ServiceError`. A failed call leaves the store as it was, which is the rollback.

`Store.Valid` is the integrity the schema and the transactions keep together:
- every message belongs to an existing session;
- rows satisfy their NOT NULL and Bean Validation constraints;
- ids and instants come from the past;
- threads are in creation order.

Every mutating operation is proved to preserve `Valid`.

Files, one module each:

| file | module | models |
|---|---|---|
| wrappers.dfy | Wrappers | `Option`, `Result` |
| text.dfy | Text | `isBlank`, `trim`-emptiness, `@NotBlank`, `@Size`, `startsWith`, ASCII case folding |
| entities.dfy | Entities | `Session`, `Message`, the message entity's constraints |
| requests.dfy | Requests | request bodies and the field errors `@Valid` reports |
| mappers.dfy | Mappers | `SessionMapper`, `MessageMapper`, response records |
| errors.dfy | Errors | exception kinds and `GlobalExceptionHandler` |
| paging.dfy | Paging | zero-based offset pages (`PageRequest.of(page, size)`) |
| store.dfy | Store | the database state and its integrity invariant |
| session_service.dfy | SessionService | `SessionServiceImpl` |
| message_service.dfy | MessageService | `MessageServiceImpl` |
| headers.dfy | Http | case-insensitive multi-valued headers |
| gateway.dfy | Gateway | `CorrelationIdFilter`, gateway `ApiKeyFilter`, `LoggingFilter`, filter order |
| storage_guard.dfy | StorageGuard | storage `ApiKeyFilter` |
| boundary.dfy | Boundary | the two tiers composed |

Behaviours of the code worth knowing, each modelled as written:
- The storage filter checks only paths starting with `/api/`; every other path passes with no authentication. A stricter filter would refuse everything outside an allow-list of public paths.
- The gateway appends the internal key only on paths that are not public. Public paths reach the storage tier without it (`Boundary.PublicPathsGetNoInternalKey`).
- The generic 500 handler copies the exception's own message into the body, so an internal detail can reach the caller. Only data-access failures get a fixed message. See `Errors.DatabaseDetailHidden`.
- Rename does not set `updatedAt`: the service line that would do it is commented out, so the response carries the old value. The update flushed at commit still restamps the column through `@UpdateTimestamp` when the title really changed, so the renamed session heads the listings (`SessionService.RetitledSessionHeadsListings`). A rename to the same title leaves the row clean; no update runs and nothing moves.
- The favorite toggle throws `ResourceNotFoundException`. Rename, delete and get throw `ChatSessionNotFoundException`. Both kinds become the same 404 reply (`Errors.NotFoundKindsAgree`).
- A message request accepts a sender of any length. The entity bound of 255 characters is enforced only at commit, so a longer sender becomes a 500 rather than a 400 (`MessageService.SenderBoundOnlyOnEntity`).

## Model

| member | source | states |
|---|---|---|
| Entities.MessageInsertableIff | rag-chat-storage/src/main/java/com/rag/chatstorage/entity/Message.java:50-68 | a message can be inserted exactly when its sender is non-null, has a char above U+0020 and has at most 255 chars, its content is non-null with a char above U+0020, and it has a session; `context` is never constrained |
| Entities.SenderBoundIsExact | rag-chat-storage/src/main/java/com/rag/chatstorage/entity/Message.java:58-61 | a 255-char sender passes; one more char is reported with "Sender name must not exceed 255 characters" and is rejected, not truncated |
| Requests.TitleRule | rag-chat-storage/src/main/java/com/rag/chatstorage/dto/RenameSessionRequest.java:12-15 | a title passes iff it is non-null, not blank after trim and at most 100 chars; a failure names only the `title` field |
| Requests.CreateSessionValidity | rag-chat-storage/src/main/java/com/rag/chatstorage/dto/CreateSessionRequest.java:11-18 | a create body is valid iff the owner is not blank and the title passes the title rule; the reported fields are exactly the failing ones |
| Requests.RenameUsesCreateTitleRule | rag-chat-storage/src/main/java/com/rag/chatstorage/dto/RenameSessionRequest.java:12-15 | with a valid owner, the rename body and the create body accept the same titles |
| Requests.BlankFieldsRejected | rag-chat-storage/src/main/java/com/rag/chatstorage/dto/MessageRequest.java:20-31 | an empty or whitespace-only value in any `@NotBlank` field yields that field's error with its declared message |
| Requests.MessageRequestValidity | rag-chat-storage/src/main/java/com/rag/chatstorage/dto/MessageRequest.java:20-38 | a message body is valid iff sender and content are not blank; `context` never affects validity |
| Mappers.SessionToResponseList | rag-chat-storage/src/main/java/com/rag/chatstorage/mapper/SessionMapper.java:39-40 | the list mapping keeps length and maps position by position |
| Mappers.MessageToResponseList | rag-chat-storage/src/main/java/com/rag/chatstorage/service/impl/MessageServiceImpl.java:75 | `Page.map` keeps length and maps position by position |
| Mappers.SessionToResponseInjective | rag-chat-storage/src/main/java/com/rag/chatstorage/mapper/SessionMapper.java:36-37 | two sessions have the same response iff they are the same session: no field is lost |
| Mappers.CreateResponseFromRequest | rag-chat-storage/src/main/java/com/rag/chatstorage/mapper/SessionMapper.java:22-26 | a freshly mapped session answers with the request's owner and title, no id, not a favorite, and each timestamp from its own clock reading |
| Mappers.UpdatesAreFramed | rag-chat-storage/src/main/java/com/rag/chatstorage/mapper/SessionMapper.java:28-34 | each update mapping changes exactly one response field; applying the favorite update twice equals applying it once |
| Mappers.MessageRoundTrip | rag-chat-storage/src/main/java/com/rag/chatstorage/mapper/MessageMapper.java:14-25 | request to entity to response returns sender, content and context unchanged, the attached session's id, no id and the given instant |
| Mappers.MessageToResponseListAppend | rag-chat-storage/src/main/java/com/rag/chatstorage/service/impl/MessageServiceImpl.java:71-75 | mapping commutes with concatenation |
| Errors.DetailsOf | rag-chat-storage/src/main/java/com/rag/chatstorage/exception/GlobalExceptionHandler.java:43-45 | the details map has exactly the reported fields as keys; each field maps to the message of the last error for it |
| Errors.Handle | rag-chat-storage/src/main/java/com/rag/chatstorage/exception/GlobalExceptionHandler.java:24-87 | the body's status equals the reply status; details are present iff the error is a field-validation failure and then cover its fields; the status is one of 400, 404, 409, 500 |
| Errors.StatusFollowsClass | rag-chat-storage/src/main/java/com/rag/chatstorage/exception/GlobalExceptionHandler.java:24-74 | validation errors are exactly the 400s, missing resources exactly the 404s, integrity violations exactly the 409s, internal failures exactly the 500s |
| Errors.NotFoundKindsAgree | rag-chat-storage/src/main/java/com/rag/chatstorage/exception/GlobalExceptionHandler.java:24-37 | both not-found kinds give the same 404 "Not Found" reply carrying the exception message |
| Errors.DatabaseDetailHidden | rag-chat-storage/src/main/java/com/rag/chatstorage/exception/GlobalExceptionHandler.java:64-74 | a data-access failure's reply does not depend on its message; the generic fallback passes its message through |
| Errors.ValidationDetailsPerField | rag-chat-storage/src/main/java/com/rag/chatstorage/exception/GlobalExceptionHandler.java:41-55 | every reported field appears in the details with the message of an error for it that no later error overrides |
| Paging.PageOf | rag-chat-storage/src/main/java/com/rag/chatstorage/service/impl/MessageServiceImpl.java:68-71 | page `p` of size `s` has `min(s, n - p*s)` elements, none once `p*s >= n` |
| Paging.PageOfAt | rag-chat-storage/src/main/java/com/rag/chatstorage/service/impl/MessageServiceImpl.java:68-71 | element `i` of a page is element `offset + i` of the whole ordered result |
| Paging.PagesArePrefix | rag-chat-storage/src/main/java/com/rag/chatstorage/service/impl/MessageServiceImpl.java:68-71 | the first `k` pages, concatenated, are exactly the first `min(k*s, n)` elements |
| Paging.AllPagesReassemble | rag-chat-storage/src/main/java/com/rag/chatstorage/service/impl/MessageServiceImpl.java:68-71 | reading pages `0 .. ceil(n/s) - 1` yields the whole result exactly once, in order |
| Paging.PagesPastTheEnd | rag-chat-storage/src/main/java/com/rag/chatstorage/service/impl/MessageServiceImpl.java:68-71 | a page is empty iff its index is at least `ceil(n/s)` |
| Paging.PositionOnOnePage | rag-chat-storage/src/main/java/com/rag/chatstorage/service/impl/MessageServiceImpl.java:68-71 | element `pos` is on page `pos / s` at offset `pos % s`, and on no other page |
| SessionService.CreateSession | rag-chat-storage/src/main/java/com/rag/chatstorage/service/impl/SessionServiceImpl.java:38-50 | succeeds iff owner and title are non-null, else a 409 integrity error with the store unchanged; the response has a fresh id, the request's owner and title, no favorite, and the service's two readings (later than every earlier instant, `createdAt` <= `updatedAt`); the stored row equals the response except for the commit-time timestamps, which are no earlier; the thread is empty; no other session and no other session's thread changes; consistency is kept |
| SessionService.ValidCreateRequestSucceeds | rag-chat-storage/src/main/java/com/rag/chatstorage/service/impl/SessionServiceImpl.java:38-45 | every body that passes validation is stored |
| SessionService.RenameSession | rag-chat-storage/src/main/java/com/rag/chatstorage/service/impl/SessionServiceImpl.java:61-77 | an unknown id gives exactly "Session not found with ID: <id>" and changes nothing; a null title fails with the NOT NULL violation; in a consistent store an existing id with a non-null title always succeeds; on success the response is the session with the new title and its old `updatedAt`; the row gets the new title and, only when the title changed, an `updatedAt` stamped at commit; messages and every other session stay; consistency is kept |
| SessionService.DeleteSession | rag-chat-storage/src/main/java/com/rag/chatstorage/service/impl/SessionServiceImpl.java:80-96 | fails iff the id is unknown ("Chat session not found with id: <id>"); otherwise the session and its whole thread are gone and every other session and thread is unchanged |
| SessionService.ToggleFavorite | rag-chat-storage/src/main/java/com/rag/chatstorage/service/impl/SessionServiceImpl.java:99-109 | fails iff the id is unknown, with the resource-not-found kind; otherwise the response has the requested flag and `updatedAt` at the service's reading, later than every earlier instant; the row has the same flag and the commit-time `updatedAt`, no earlier; nothing else changes |
| SessionService.ToggleFavoriteIdempotentOnFlag | rag-chat-storage/src/main/java/com/rag/chatstorage/service/impl/SessionServiceImpl.java:99-105 | repeating the same request leaves the flag where the first put it; only `updatedAt` moves |
| SessionService.SessionLookupAgreesWithListing | rag-chat-storage/src/main/java/com/rag/chatstorage/service/impl/SessionServiceImpl.java:120-134 | in a consistent store, reading by id succeeds iff the full listing holds a session with that id, and then returns that listed session; otherwise the error is exactly "Session not found with ID: <id>" |
| SessionService.CreatedSessionReadsBack | rag-chat-storage/src/main/java/com/rag/chatstorage/service/impl/SessionServiceImpl.java:127-134 | reading a created session back by its new id shows the create's response with commit-time timestamps no earlier than the returned ones; every other id reads as before |
| SessionService.RenamedSessionReadsBack | rag-chat-storage/src/main/java/com/rag/chatstorage/service/impl/SessionServiceImpl.java:127-134 | after a rename, reading the session back shows the rename's response with the new title, every field but `updatedAt` equal; in a consistent store `updatedAt` moves forward iff the title changed; a failed rename changes no read; other ids read as before |
| SessionService.RetitledSessionHeadsListings | rag-chat-storage/src/main/java/com/rag/chatstorage/service/impl/SessionServiceImpl.java:61-69 | in a consistent store a rename that changes the title leaves the session with the latest `updatedAt` of all, so it heads the newest-first listings |
| SessionService.ToggledSessionReadsBack | rag-chat-storage/src/main/java/com/rag/chatstorage/service/impl/SessionServiceImpl.java:127-134 | after setting the flag, reading the session back shows the call's response with the requested flag and the commit-time `updatedAt`, `lag` after the returned one; an unknown id changes no read; other ids read as before |
| SessionService.DeletedSessionIsGone | rag-chat-storage/src/main/java/com/rag/chatstorage/service/impl/SessionServiceImpl.java:80-86 | after a delete the session cannot be read or deleted again, and a later create never reuses its id |
| SessionService.InsertByUpdated | rag-chat-storage/src/main/java/com/rag/chatstorage/service/impl/SessionServiceImpl.java:112-114 | inserting keeps newest-first order and distinctness and adds exactly the one session |
| SessionService.FindSessions | rag-chat-storage/src/main/java/com/rag/chatstorage/service/impl/SessionServiceImpl.java:112-125 | the repository listing holds each matching stored session exactly once, newest `updatedAt` first |
| SessionService.ListSessions | rag-chat-storage/src/main/java/com/rag/chatstorage/service/impl/SessionServiceImpl.java:112-125 | the mapped listing holds exactly the responses of the matching sessions, each once, newest first |
| SessionService.GetSessionsForUser | rag-chat-storage/src/main/java/com/rag/chatstorage/service/impl/SessionServiceImpl.java:112-117 | exactly the owner's sessions, each once, all with that owner, newest first |
| SessionService.GetAllSessions | rag-chat-storage/src/main/java/com/rag/chatstorage/service/impl/SessionServiceImpl.java:120-125 | every stored session, each once, newest first |
| SessionService.DemoScenario | rag-chat-storage/src/main/java/com/rag/chatstorage/service/impl/SessionServiceImpl.java:38-134 | create "Demo" for "u1", favorite it and read it back by id: the flag is true with an `updatedAt` later than the creation instant; rename it "Demo2": the owner's listing is exactly that session as read back, titled "Demo2"; this holds for every way the clock can move between the readings |
| MessageService.AddMessage | rag-chat-storage/src/main/java/com/rag/chatstorage/service/impl/MessageServiceImpl.java:33-57 | an unknown session gives the not-found error; in a consistent store an append to an existing session succeeds iff the sender is non-blank and at most 255 chars and the content is non-blank; on success the response has a fresh id, a later instant and the request's fields, and the thread grows by one message at its end, which is the response with a commit-time `createdAt` no earlier; no other thread changes; consistency is kept |
| MessageService.AppendExtendsThread | rag-chat-storage/src/main/java/com/rag/chatstorage/service/impl/MessageServiceImpl.java:44-48 | committing a message puts it at the end of its session's thread and leaves other threads and all sessions alone |
| MessageService.AppendKeepsValid | rag-chat-storage/src/main/java/com/rag/chatstorage/service/impl/MessageServiceImpl.java:33-57 | committing a constraint-satisfying message with a fresh id and a later instant to an existing session keeps the store consistent |
| MessageService.SenderBoundOnlyOnEntity | rag-chat-storage/src/main/java/com/rag/chatstorage/entity/Message.java:58-61 | a 256-char sender passes request validation, then the append fails with a 500 |
| MessageService.GetMessagesBySessionId | rag-chat-storage/src/main/java/com/rag/chatstorage/service/impl/MessageServiceImpl.java:60-84 | succeeds iff the session exists, page >= 0 and size >= 1, with the errors checked in that order; the content is that page of the mapped thread; the total is the thread length; in a consistent store the page is in creation order and names only that session |
| MessageService.PageOfValidThread | rag-chat-storage/src/main/java/com/rag/chatstorage/service/impl/MessageServiceImpl.java:71 | in a consistent store every page of a thread is in creation order and belongs to that session |
| MessageService.PageKeepsOrderAndOwner | rag-chat-storage/src/main/java/com/rag/chatstorage/service/impl/MessageServiceImpl.java:71-75 | a page of an ordered, single-session result is ordered and single-session |
| MessageService.ValidThreadResponses | rag-chat-storage/src/main/java/com/rag/chatstorage/service/impl/MessageServiceImpl.java:71 | in a consistent store a whole mapped thread is in creation order and names its session |
| MessageService.MappingCommutesWithPaging | rag-chat-storage/src/main/java/com/rag/chatstorage/service/impl/MessageServiceImpl.java:71-75 | mapping a page equals paging the mapped thread |
| MessageService.ReadPagesArePages | rag-chat-storage/src/main/java/com/rag/chatstorage/service/impl/MessageServiceImpl.java:60-75 | reading pages one call at a time gives the concatenated pages of the mapped thread |
| MessageService.ReadingEveryPageYieldsThread | rag-chat-storage/src/main/java/com/rag/chatstorage/service/impl/MessageServiceImpl.java:60-75 | reading every page in turn returns the whole thread once, in order, for any page size |
| MessageService.AppendedMessageIsVisible | rag-chat-storage/src/main/java/com/rag/chatstorage/service/impl/MessageServiceImpl.java:33-75 | after an append the total grows by one and the last element of the last page is the returned message with its commit-time `createdAt` |
| MessageService.LastMessageOnLastPage | rag-chat-storage/src/main/java/com/rag/chatstorage/service/impl/MessageServiceImpl.java:68-75 | the newest message of a thread of length `n` is read at offset `(n-1) % s` of page `(n-1) / s` |
| MessageService.DeletedSessionTakesItsMessages | rag-chat-storage/src/main/java/com/rag/chatstorage/service/impl/MessageServiceImpl.java:33-65 | after a delete the thread is empty, reading it fails and appending to it fails with the store unchanged |
| MessageService.ValidAppendIsReadBack | rag-chat-storage/src/main/java/com/rag/chatstorage/service/impl/MessageServiceImpl.java:33-75 | a valid append in a consistent store succeeds, keeps consistency, and the read-back thread gains exactly one response at its end: the returned one with its commit-time `createdAt` |
| MessageService.WholeThreadOnFirstPage | rag-chat-storage/src/main/java/com/rag/chatstorage/service/impl/MessageServiceImpl.java:68-75 | a thread no longer than the page size is read whole from page 0 |
| MessageService.TwoAppendsReadBack | rag-chat-storage/src/main/java/com/rag/chatstorage/service/impl/MessageServiceImpl.java:33-84 | two valid appends to an empty thread come back from page 0 of size 10 in order, each as returned apart from its commit-time `createdAt`, total 2 |
| MessageService.TwoMessageScenario | rag-chat-storage/src/main/java/com/rag/chatstorage/service/impl/MessageServiceImpl.java:33-84 | "Hello" from "user123" then "Hi" from "assistant" read back in that order with total 2, each as returned apart from its commit-time `createdAt` |
| Http.LookupIgnoresCase | rag-api-gateway/src/main/java/com/rag/api/gateway/filter/ApiKeyFilter.java:46-58 | two spellings of a header name that differ only in ASCII case read the same values and the same first value, and a value added under one spelling reads back under the other |
| Http.ApiKeyReadsBackInLowerCase | rag-api-gateway/src/main/java/com/rag/api/gateway/filter/ApiKeyFilter.java:46 | a value added as "X-API-KEY" reads back, after the values already there, under "x-api-key" |
| Http.Add | rag-api-gateway/src/main/java/com/rag/api/gateway/filter/ApiKeyFilter.java:56-59 | `add` appends after the existing values and changes no other header |
| Http.AddKeepsFirst | rag-api-gateway/src/main/java/com/rag/api/gateway/filter/CorrelationIdFilter.java:22-35 | appending never changes an existing first value; on an absent header the appended value becomes the first |
| Gateway.ApiKeyFilterOutcomes | rag-api-gateway/src/main/java/com/rag/api/gateway/filter/ApiKeyFilter.java:34-61 | forwarded unchanged iff the path is public; 401 iff not public, a key is configured and not presented; forwarded with the internal key iff not public and the key is unconfigured or presented |
| Gateway.SwaggerHtmlPrefixRedundant | rag-api-gateway/src/main/java/com/rag/api/gateway/filter/ApiKeyFilter.java:26-31 | the "/swagger-ui.html" prefix is already covered by "/swagger-ui" |
| Gateway.CorrelationIdFilter | rag-api-gateway/src/main/java/com/rag/api/gateway/filter/CorrelationIdFilter.java:22-39 | keeps the caller's correlation id or uses the fresh one, appends it, and leaves path and every other header unchanged |
| Gateway.GlobalFiltersInOrder | rag-api-gateway/src/main/java/com/rag/api/gateway/filter/ApiKeyFilter.java:64-67 | the global filters run in strictly ascending order, so the key check (-100) precedes logging (0) |
| Gateway.ShortCircuitStopsChain | rag-api-gateway/src/main/java/com/rag/api/gateway/filter/ApiKeyFilter.java:48-52 | once a filter answers, no later filter and no forward runs |
| Gateway.PipelineIsKeyCheckAfterTagging | rag-api-gateway/src/main/java/com/rag/api/gateway/filter/LoggingFilter.java:15-30 | logging changes nothing, so the pipeline is the key check applied to the tagged request |
| Gateway.TaggingKeepsKeys | rag-api-gateway/src/main/java/com/rag/api/gateway/filter/CorrelationIdFilter.java:29-36 | tagging leaves the path and both key headers unchanged |
| Gateway.PipelineContract | rag-api-gateway/src/main/java/com/rag/api/gateway/filter/ApiKeyFilter.java:34-61 | end to end: 401 iff not public, a key is configured and not presented, otherwise forwarded; a forwarded request carries the caller's or the fresh correlation id first, and the internal key is appended iff the path is not public |
| StorageGuard.Guard | rag-chat-storage/src/main/java/com/rag/chatstorage/security/ApiKeyFilter.java:29-52 | proceeds iff the path is outside "/api/" or the first internal-key value equals the key; else 403 with "Forbidden: Invalid internal key"; the gateway principal with ROLE_INTERNAL is set iff the path is protected |
| StorageGuard.GuardSeesOnlyPathAndFirstKey | rag-chat-storage/src/main/java/com/rag/chatstorage/security/ApiKeyFilter.java:29-35 | the decision depends only on the path and the first internal-key value |
| Boundary.ApiPathsAreNeverExcluded | rag-api-gateway/src/main/java/com/rag/api/gateway/filter/ApiKeyFilter.java:26-43 | no "/api/" path is public at the gateway |
| Boundary.SharedKeyAdmits | rag-chat-storage/src/main/java/com/rag/chatstorage/security/ApiKeyFilter.java:32-50 | with a shared internal key and no caller-sent internal key, an API call the gateway passes is admitted as the gateway |
| Boundary.CallerKeyShadowsInjected | rag-chat-storage/src/main/java/com/rag/chatstorage/security/ApiKeyFilter.java:33-35 | a caller-sent internal key comes before the injected one, and the storage tier admits iff that caller value is the key |
| Boundary.PublicPathsGetNoInternalKey | rag-api-gateway/src/main/java/com/rag/api/gateway/filter/ApiKeyFilter.java:38-43 | a public path reaches the storage tier with exactly the internal-key values the caller sent |

## Left out

- Controllers, request routing and the gateway's route table. The model assumes a forwarded request keeps its path.
- Spring Security's authorization rules after the storage filter (`SecurityConfig`) are not part of this model. So the exact path "/api", which the filter passes and the `/api/**` rule then refuses, is not modelled.
- Wall-clock time and random UUIDs. A clock and a fresh-id counter in the store stand in for them. The fresh correlation id is a parameter. How far the clock moves between the readings within one write is a parameter of the write.
- UUID text is rendered as the decimal digits of the model's id.
- Transactions, isolation and concurrent requests. Each call is one atomic step.
- Logging, including the response line `LoggingFilter` prints.
- Timestamps in error bodies.
- Exact framework exception texts. The database NOT NULL message and the commit-failure message are fixed stand-ins. The two `PageRequest.of` messages are Spring Data's own texts.
- Java `String.length()` counts UTF-16 code units. A Dafny `char` stands for one unit, and surrogate pairs are not distinguished.
- Database column widths beyond the annotated sender bound.
- Gateway.CorrelationIdFilter: the decorated request re-copies the headers on every `getHeaders()` call; the model makes that copy once.
- Gateway.GlobalFiltersInOrder: models the two global filters of the gateway only. Spring Cloud Gateway's own built-in filters are not modelled.
- SessionService.CreateSession: the mapper's two clock readings are overwritten by the service's before anything uses them, so they are not modelled.
- Whether Hibernate runs the timestamp generators when `save` is called or when the insert is flushed depends on its version, which is not part of this model. The model takes the flush reading, and its lag parameters may be zero.
- MessageService.GetMessagesBySessionId: does not model Java's 32-bit `int` for `page` and `size`. The row offset `page * size` is a `long`, and the query binds it as an `int` first result. Past `Integer.MAX_VALUE`, recent Spring Data versions throw an invalid-API-usage data-access exception, which the handler turns into a 500. Older versions truncate the offset. The source does not fix which version it uses, The model takes both as unbounded integers. Where the source fails, the model returns the page at the true offset, which is empty past the thread's end. So for offsets beyond `Integer.MAX_VALUE` its Ok result is not what the source returns.
- MessageService.GetMessagesBySessionId: returns messages with equal `createdAt` in insertion order. The query orders only by `createdAt`, so it promises no order among such messages, and separate page queries may order them differently. The model's clock never stamps two messages alike, so this does not arise in stores it builds, but `Store.Valid` allows it.
- MessageService.ReadingEveryPageYieldsThread: in the source, reading every page gives back the whole thread only when no two of its messages share a `createdAt`. The model's fixed order for ties hides this.
- Errors.DetailsOf: Bean Validation reports violations as an unordered set. When one field breaks two constraints, for example a title of 101 spaces, the source may keep either message. The model keeps the message of the constraint declared later.

=== FILE: boundary.dfy ===
/** The two tiers together: a request passes through the gateway pipeline
    and, when forwarded, reaches the storage tier's guard with the same
    path. */
module Boundary {

  import opened Wrappers
  import opened Text
  import opened Http
  import Gateway
  import StorageGuard

  /** What the storage tier's guard makes of a request that entered the
      gateway: `None` when the gateway already answered. */
  function Admit(cfg: Gateway.GatewayConfig, storageKey: string, req: Request, freshId: string): Option<StorageGuard.GuardResult>
  {
    match Gateway.Pipeline(cfg, req, freshId)
    case Respond(_) => None
    case Forward(out) => Some(StorageGuard.Guard(storageKey, out))
  }

  /** No storage API path is public at the gateway, so every storage API
      call goes through the key check and gets the internal key. */
  lemma ApiPathsAreNeverExcluded(path: string)
    ensures StorageGuard.Protected(path) ==> !Gateway.IsExcluded(path)
  {
    if StorageGuard.Protected(path) {
      assert path[..5] == "/api/";
      assert path[2] == 'p';
      forall p | p in Gateway.ExcludedPrefixes
        ensures !StartsWith(path, p)
      {
        assert |p| >= 3 && p[2] != 'p';
      }
    }
  }

  /** When both tiers share the internal key and the caller sent none of its
      own, a storage API call the gateway lets through is admitted by the
      storage tier as the gateway. */
  lemma SharedKeyAdmits(cfg: Gateway.GatewayConfig, req: Request, freshId: string)
    requires StorageGuard.Protected(req.path)
    requires |Values(req.headers, InternalKeyHeader)| == 0
    requires !Gateway.KeyConfigured(cfg) || Gateway.KeyPresented(cfg, req)
    ensures Admit(cfg, cfg.internalServiceKey, req, freshId) == Some(StorageGuard.Proceed(Some(StorageGuard.GatewayPrincipal)))
  {
    ApiPathsAreNeverExcluded(req.path);
    Gateway.PipelineContract(cfg, req, freshId);
  }

  /** The gateway adds its key after any the caller sent, and the storage
      tier reads the first: a caller's own internal-key header is what the
      storage tier checks. A wrong one is refused even though the gateway
      accepted the request; a right one is honoured whatever the gateway
      appended. */
  lemma CallerKeyShadowsInjected(cfg: Gateway.GatewayConfig, storageKey: string, req: Request, freshId: string)
    requires StorageGuard.Protected(req.path)
    requires |Values(req.headers, InternalKeyHeader)| > 0
    requires Gateway.Pipeline(cfg, req, freshId).Forward?
    ensures Admit(cfg, storageKey, req, freshId).Some?
    ensures Admit(cfg, storageKey, req, freshId).value.Proceed? <==> Values(req.headers, InternalKeyHeader)[0] == storageKey
  {
    ApiPathsAreNeverExcluded(req.path);
    Gateway.PipelineContract(cfg, req, freshId);
  }

  /** A public path reaches the storage tier with exactly the internal-key
      values the caller sent: the gateway adds none. */
  lemma PublicPathsGetNoInternalKey(cfg: Gateway.GatewayConfig, req: Request, freshId: string)
    requires Gateway.IsExcluded(req.path)
    ensures Gateway.Pipeline(cfg, req, freshId).Forward?
    ensures Values(Gateway.Pipeline(cfg, req, freshId).request.headers, InternalKeyHeader) == Values(req.headers, InternalKeyHeader)
  {
    Gateway.PipelineContract(cfg, req, freshId);
  }
}

=== FILE: entities.dfy ===
/** The two persistent records of the chat-storage service, `Session` and
    `Message`, with the column and Bean Validation constraints their
    annotations declare. */
module Entities {

  import opened Wrappers
  import opened Text

  /** A UUID. Identifiers are handed out by the store's fresh-id counter, so a
      natural number carries everything the model needs: equality and
      freshness. */
  type Uuid = nat

  /** A reading of the store's clock; the clock only moves forward. */
  type Instant = int

  /** A chat session. `id` is `None` until the store assigns one; `userId`
      and `title` are Java references that may be `null` in memory but are
      NOT NULL columns. The owned message list lives in the store, keyed by
      the session's id. */
  datatype Session = Session(
    id: Option<Uuid>,
    userId: Option<string>,
    title: Option<string>,
    favorite: bool,
    createdAt: Instant,
    updatedAt: Instant
  )

  /** A chat message. `sessionId` is the id of the session the message is
      attached to (the `session_id` join column); `context` is an opaque,
      optional payload. */
  datatype Message = Message(
    id: Option<Uuid>,
    sessionId: Option<Uuid>,
    sender: Option<string>,
    content: Option<string>,
    context: Option<string>,
    createdAt: Instant
  )

  /** `@Size(max = 255)` and `length = 255` on `Message.sender`. */
  const MaxSenderLength: nat := 255

  /** One failed Bean Validation constraint on an entity property. */
  datatype ConstraintViolation = ConstraintViolation(property: string, message: string)

  /** The violations Bean Validation reports when a message entity is about
      to be inserted. Bean Validation returns them as an unordered set; the
      model lists them in declaration order of the annotations. */
  function MessageViolations(m: Message): seq<ConstraintViolation>
  {
    (if NotBlank(m.sender) then []
     else [ConstraintViolation("sender", "Sender cannot be blank")])
    + (if SizeAtMost(m.sender, MaxSenderLength) then []
       else [ConstraintViolation("sender", "Sender name must not exceed 255 characters")])
    + (if NotBlank(m.content) then []
       else [ConstraintViolation("content", "Message content cannot be blank")])
  }

  /** A message the database accepts: it passes Bean Validation and its
      NOT NULL join column is set. `context` is never constrained. */
  predicate MessageInsertable(m: Message)
  {
    MessageViolations(m) == [] && m.sessionId.Some?
  }

  /** The constraints on a message, stated field by field: non-blank sender
      of at most 255 chars, non-blank content of any length, a session. */
  lemma MessageInsertableIff(m: Message)
    ensures MessageInsertable(m) <==>
      && m.sender.Some? && !TrimsToEmpty(m.sender.value) && |m.sender.value| <= MaxSenderLength
      && m.content.Some? && !TrimsToEmpty(m.content.value)
      && m.sessionId.Some?
  {
  }

  /** A sender longer than 255 chars is reported, not cut down: the entity
      with exactly 255 chars passes and one more char fails. */
  lemma SenderBoundIsExact(m: Message, c: char)
    requires m.sender.Some? && |m.sender.value| == MaxSenderLength
    requires NotBlank(m.content) && m.sessionId.Some? && NotBlank(m.sender)
    ensures MessageInsertable(m)
    ensures !MessageInsertable(m.(sender := Some(m.sender.value + [c])))
    ensures ConstraintViolation("sender", "Sender name must not exceed 255 characters")
            in MessageViolations(m.(sender := Some(m.sender.value + [c])))
  {
    var m' := m.(sender := Some(m.sender.value + [c]));
    assert !TrimsToEmpty(m'.sender.value) by {
      var i :| 0 <= i < |m.sender.value| && m.sender.value[i] > ' ';
      assert m'.sender.value[i] == m.sender.value[i];
    }
  }

  /** A session the database accepts: its NOT NULL columns are set. */
  predicate SessionInsertable(s: Session)
  {
    s.userId.Some? && s.title.Some?
  }
}

=== FILE: errors.dfy ===
/** What the storage service can throw, and the global handler that turns
    each kind into an HTTP status and a uniform error body. */
module Errors {

  import opened Wrappers
  import opened Requests

  /** The exception kinds that reach the handler. `Unexpected` is every
      exception no dedicated handler claims; its message may be `null`. */
  datatype ServiceError =
    | ChatSessionNotFound(message: string)
    | ResourceNotFound(message: string)
    | InvalidRequest(message: string)
    | ArgumentNotValid(fieldErrors: seq<FieldError>)
    | DataIntegrityViolation(cause: string)
    | DataAccessFailure(message: string)
    | Unexpected(detail: Option<string>)

  /** The error body; the timestamp is left out. `details` is set only for
      field-validation failures. */
  datatype ErrorResponse = ErrorResponse(
    status: int,
    error: string,
    message: Option<string>,
    details: Option<map<string, string>>
  )

  /** The HTTP reply: status line and body. */
  datatype ErrorReply = ErrorReply(httpStatus: int, body: ErrorResponse)

  const BadRequest: int := 400
  const NotFound: int := 404
  const Conflict: int := 409
  const InternalServerError: int := 500

  /** The `details` map built by putting each field error in turn into a
      hash map: one entry per invalid field, a later error for the same
      field overwriting an earlier one. */
  function DetailsOf(errs: seq<FieldError>): (d: map<string, string>)
    ensures d.Keys == FieldsOf(errs)
    ensures forall i :: 0 <= i < |errs| && LastForField(errs, i) ==> d[errs[i].field] == errs[i].message
  {
    if errs == [] then map[]
    else
      var init := errs[..|errs| - 1];
      var last := errs[|errs| - 1];
      assert forall i :: 0 <= i < |init| ==> init[i] == errs[i];
      assert FieldsOf(errs) == FieldsOf(init) + {last.field} by {
        forall f | f in FieldsOf(errs) ensures f in FieldsOf(init) + {last.field} {
          var i :| 0 <= i < |errs| && errs[i].field == f;
          if i < |init| { assert init[i].field == f; }
        }
      }
      DetailsOf(init)[last.field := last.message]
  }

  /** No later error in `errs` names the same field as `errs[i]`. */
  predicate LastForField(errs: seq<FieldError>, i: int)
    requires 0 <= i < |errs|
  {
    forall j :: i < j < |errs| ==> errs[j].field != errs[i].field
  }

  /** The shared helper: status, label and message, no details. */
  function BuildErrorResponse(status: int, error: string, message: Option<string>): ErrorReply
  {
    ErrorReply(status, ErrorResponse(status, error, message, None))
  }

  /** The global exception handler: the most specific handler for the
      thrown kind decides. */
  function Handle(e: ServiceError): (r: ErrorReply)
    ensures r.body.status == r.httpStatus
    ensures r.body.details.Some? <==> e.ArgumentNotValid?
    ensures e.ArgumentNotValid? ==> r.body.details.value.Keys == FieldsOf(e.fieldErrors)
    ensures r.httpStatus in {BadRequest, NotFound, Conflict, InternalServerError}
  {
    match e
    case ResourceNotFound(m) => BuildErrorResponse(NotFound, "Not Found", Some(m))
    case InvalidRequest(m) => BuildErrorResponse(BadRequest, "Invalid Request", Some(m))
    case ChatSessionNotFound(m) => BuildErrorResponse(NotFound, "Not Found", Some(m))
    case ArgumentNotValid(errs) =>
      ErrorReply(BadRequest, ErrorResponse(BadRequest, "Validation Failed",
                                           Some("One or more fields are invalid."),
                                           Some(DetailsOf(errs))))
    case DataIntegrityViolation(cause) =>
      BuildErrorResponse(Conflict, "Data Integrity Violation", Some(cause))
    case DataAccessFailure(_) =>
      BuildErrorResponse(InternalServerError, "Database Error", Some("Unable to complete the operation."))
    case Unexpected(m) => BuildErrorResponse(InternalServerError, "Internal Server Error", m)
  }

  /** The error classes the handlers distinguish: what the caller did wrong
      versus what went wrong inside. */
  datatype ErrorClass = ValidationFailure | Missing | IntegrityViolation | InternalFailure

  function ClassOf(e: ServiceError): ErrorClass
  {
    match e
    case ChatSessionNotFound(_) => Missing
    case ResourceNotFound(_) => Missing
    case InvalidRequest(_) => ValidationFailure
    case ArgumentNotValid(_) => ValidationFailure
    case DataIntegrityViolation(_) => IntegrityViolation
    case DataAccessFailure(_) => InternalFailure
    case Unexpected(_) => InternalFailure
  }

  /** Each class has one status: validation 400, missing 404, integrity
      409, internal 500; so a 4xx reply means the caller is at fault. */
  lemma StatusFollowsClass(e: ServiceError)
    ensures ClassOf(e) == ValidationFailure <==> Handle(e).httpStatus == BadRequest
    ensures ClassOf(e) == Missing <==> Handle(e).httpStatus == NotFound
    ensures ClassOf(e) == IntegrityViolation <==> Handle(e).httpStatus == Conflict
    ensures ClassOf(e) == InternalFailure <==> Handle(e).httpStatus == InternalServerError
  {
  }

  /** The two not-found kinds are indistinguishable to the caller: same
      status, same label, the exception's own message. */
  lemma NotFoundKindsAgree(m: string)
    ensures Handle(ChatSessionNotFound(m)) == Handle(ResourceNotFound(m))
    ensures Handle(ChatSessionNotFound(m)) == ErrorReply(NotFound, ErrorResponse(NotFound, "Not Found", Some(m), None))
  {
  }

  /** A database failure never reveals its own message; the generic
      fallback, by contrast, passes the exception message through. */
  lemma DatabaseDetailHidden(a: string, b: string, m: Option<string>)
    ensures Handle(DataAccessFailure(a)) == Handle(DataAccessFailure(b))
    ensures Handle(DataAccessFailure(a)).body.message == Some("Unable to complete the operation.")
    ensures Handle(Unexpected(m)).body.message == m
  {
  }

  /** A validation failure lists each invalid field once, with the message
      of the last error reported for it. */
  lemma {:induction false} ValidationDetailsPerField(errs: seq<FieldError>, f: string)
    requires f in FieldsOf(errs)
    ensures var d := Handle(ArgumentNotValid(errs)).body.details.value;
      f in d && exists i :: 0 <= i < |errs| && errs[i].field == f && LastForField(errs, i) && d[f] == errs[i].message
  {
    var i :| 0 <= i < |errs| && errs[i].field == f;
    while !LastForField(errs, i)
      invariant 0 <= i < |errs| && errs[i].field == f
      decreases |errs| - i
    {
      var j :| i < j < |errs| && errs[j].field == errs[i].field;
      i := j;
    }
  }
}

=== FILE: gateway.dfy ===
/** The gateway's request pipeline: the correlation-id web filter, then the
    global filters in ascending order (the API-key filter, then logging),
    then the forward to the storage tier. Each filter either forwards a
    (possibly changed) request or answers with a status itself. */
module Gateway {

  import opened Wrappers
  import opened Text
  import opened Http

  const ApiKeyHeader: string := "X-API-KEY"
  const CorrelationIdHeader: string := "correlation-id"
  const Unauthorized: int := 401

  /** Public paths: documentation and health endpoints. */
  const ExcludedPrefixes: seq<string> := ["/actuator", "/v3/api-docs", "/swagger-ui", "/swagger-ui.html"]

  /** The two secrets, read once at start-up. An unset gateway key reads as
      the empty string. */
  datatype GatewayConfig = GatewayConfig(gatewayApiKey: string, internalServiceKey: string)

  /** What a filter does with a request: pass it (as changed) down the
      chain, or answer with a status and stop the chain. */
  datatype FilterResult = Forward(request: Request) | Respond(status: int)

  predicate IsExcluded(path: string)
  {
    exists p :: p in ExcludedPrefixes && StartsWith(path, p)
  }

  /** The external key is enforced only when it is set and not blank. */
  predicate KeyConfigured(cfg: GatewayConfig)
  {
    !IsBlank(cfg.gatewayApiKey)
  }

  /** The external caller presented the configured key. */
  predicate KeyPresented(cfg: GatewayConfig, req: Request)
  {
    GetFirst(req.headers, ApiKeyHeader) == Some(cfg.gatewayApiKey)
  }

  /** The request with the internal key appended. */
  function WithInternalKey(cfg: GatewayConfig, req: Request): Request
  {
    Request(req.path, Add(req.headers, InternalKeyHeader, cfg.internalServiceKey))
  }

  // ---------- ApiKeyFilter ----------

  /** A public path goes through untouched and returns at once; otherwise a
      configured key must be matched exactly, and the request then goes on
      with the internal key appended. */
  function ApiKeyFilter(cfg: GatewayConfig, req: Request): FilterResult
  {
    if IsExcluded(req.path) then Forward(req)
    else
      var provided := GetFirst(req.headers, ApiKeyHeader);
      if KeyConfigured(cfg) && (provided.None? || provided.value != cfg.gatewayApiKey) then
        Respond(Unauthorized)
      else
        Forward(WithInternalKey(cfg, req))
  }

  /** Exactly one of three things happens, each under its own condition:
      a public path is forwarded unchanged; a missing or wrong key, when a
      key is configured, is answered with 401; anything else is forwarded
      with the internal key added. */
  lemma ApiKeyFilterOutcomes(cfg: GatewayConfig, req: Request)
    ensures ApiKeyFilter(cfg, req) == Forward(req) <==> IsExcluded(req.path)
    ensures ApiKeyFilter(cfg, req) == Respond(Unauthorized) <==>
      !IsExcluded(req.path) && KeyConfigured(cfg) && !KeyPresented(cfg, req)
    ensures ApiKeyFilter(cfg, req) == Forward(WithInternalKey(cfg, req)) <==>
      !IsExcluded(req.path) && (!KeyConfigured(cfg) || KeyPresented(cfg, req))
  {
    WithInternalKeyChanges(cfg, req);
  }

  /** Adding the internal key always changes the request. */
  lemma WithInternalKeyChanges(cfg: GatewayConfig, req: Request)
    ensures WithInternalKey(cfg, req) != req
  {
    var added := WithInternalKey(cfg, req);
    assert |Values(added.headers, InternalKeyHeader)| == |Values(req.headers, InternalKeyHeader)| + 1;
  }

  /** "/swagger-ui.html" is already covered by "/swagger-ui". */
  lemma SwaggerHtmlPrefixRedundant(path: string)
    ensures StartsWith(path, "/swagger-ui.html") ==> StartsWith(path, "/swagger-ui")
  {
    if StartsWith(path, "/swagger-ui.html") {
      StartsWithTransitive(path, "/swagger-ui.html", "/swagger-ui");
    }
  }

  // ---------- CorrelationIdFilter ----------

  /** Keeps the caller's correlation id, or takes `freshId` (a new random
      UUID) when there is none, and appends it to the request's
      correlation-id values. */
  function CorrelationIdFilter(req: Request, freshId: string): (r: Request)
    ensures r.path == req.path
    ensures GetFirst(r.headers, CorrelationIdHeader) ==
      if GetFirst(req.headers, CorrelationIdHeader).Some? then GetFirst(req.headers, CorrelationIdHeader) else Some(freshId)
    ensures Values(r.headers, CorrelationIdHeader) ==
      Values(req.headers, CorrelationIdHeader) + [GetFirst(req.headers, CorrelationIdHeader).GetOr(freshId)]
    ensures forall name :: Canon(name) != Canon(CorrelationIdHeader) ==> Values(r.headers, name) == Values(req.headers, name)
  {
    var id := GetFirst(req.headers, CorrelationIdHeader).GetOr(freshId);
    Request(req.path, Add(req.headers, CorrelationIdHeader, id))
  }

  // ---------- The chain ----------

  /** The gateway's global filters. */
  datatype GlobalFilter = ApiKeyStage | LoggingStage

  /** `getOrder()`: lower runs first. */
  function Order(f: GlobalFilter): int
  {
    match f
    case ApiKeyStage => -100
    case LoggingStage => 0
  }

  /** The global filters as the gateway runs them. */
  const GlobalFilters: seq<GlobalFilter> := [ApiKeyStage, LoggingStage]

  /** The chain runs in strictly ascending order, so the key check precedes
      logging. */
  lemma GlobalFiltersInOrder()
    ensures forall i, j :: 0 <= i < j < |GlobalFilters| ==> Order(GlobalFilters[i]) < Order(GlobalFilters[j])
    ensures Order(ApiKeyStage) < Order(LoggingStage)
  {
  }

  /** One global filter. Logging only observes. */
  function RunStage(f: GlobalFilter, cfg: GatewayConfig, req: Request): FilterResult
  {
    match f
    case ApiKeyStage => ApiKeyFilter(cfg, req)
    case LoggingStage => Forward(req)
  }

  /** Runs the filters in turn, each seeing the request the previous one
      forwarded; the first answer stops the chain. */
  function RunChain(fs: seq<GlobalFilter>, cfg: GatewayConfig, req: Request): FilterResult
  {
    if fs == [] then Forward(req)
    else
      match RunStage(fs[0], cfg, req)
      case Respond(status) => Respond(status)
      case Forward(next) => RunChain(fs[1..], cfg, next)
  }

  /** A filter that answers ends the chain: no later filter and no forward
      runs, whatever they are. */
  lemma {:induction false} ShortCircuitStopsChain(fs: seq<GlobalFilter>, rest: seq<GlobalFilter>, cfg: GatewayConfig, req: Request, status: int)
    requires RunChain(fs, cfg, req) == Respond(status)
    ensures RunChain(fs + rest, cfg, req) == Respond(status)
  {
    assert fs != [];
    assert (fs + rest)[0] == fs[0];
    match RunStage(fs[0], cfg, req)
    case Respond(_) =>
    case Forward(next) =>
      assert (fs + rest)[1..] == fs[1..] + rest;
      ShortCircuitStopsChain(fs[1..], rest, cfg, next, status);
  }

  /** The whole gateway: correlation id first, then the global filters. */
  function Pipeline(cfg: GatewayConfig, req: Request, freshId: string): FilterResult
  {
    RunChain(GlobalFilters, cfg, CorrelationIdFilter(req, freshId))
  }

  lemma HeaderNamesDiffer()
    ensures Canon(CorrelationIdHeader) != Canon(ApiKeyHeader)
    ensures Canon(CorrelationIdHeader) != Canon(InternalKeyHeader)
    ensures Canon(ApiKeyHeader) != Canon(InternalKeyHeader)
  {
    assert Canon(CorrelationIdHeader)[0] == 'c';
    assert Canon(InternalKeyHeader)[0] == 'x';
    assert |Canon(ApiKeyHeader)| != |Canon(InternalKeyHeader)|;
    assert |Canon(ApiKeyHeader)| != |Canon(CorrelationIdHeader)|;
  }

  /** Logging changes nothing, so the pipeline is the key check applied to
      the tagged request. */
  lemma PipelineIsKeyCheckAfterTagging(cfg: GatewayConfig, req: Request, freshId: string)
    ensures Pipeline(cfg, req, freshId) == ApiKeyFilter(cfg, CorrelationIdFilter(req, freshId))
  {
    var tagged := CorrelationIdFilter(req, freshId);
    assert GlobalFilters[1..] == [LoggingStage];
    match ApiKeyFilter(cfg, tagged)
    case Respond(_) =>
    case Forward(next) =>
      assert RunChain([LoggingStage], cfg, next) == RunChain([], cfg, next);
  }

  /** Tagging leaves the key headers alone. */
  lemma TaggingKeepsKeys(req: Request, freshId: string)
    ensures CorrelationIdFilter(req, freshId).path == req.path
    ensures Values(CorrelationIdFilter(req, freshId).headers, ApiKeyHeader) == Values(req.headers, ApiKeyHeader)
    ensures Values(CorrelationIdFilter(req, freshId).headers, InternalKeyHeader) == Values(req.headers, InternalKeyHeader)
  {
    HeaderNamesDiffer();
  }

  /** End to end through the gateway: the request is refused with 401
      exactly when its path is not public, a key is configured and the
      caller did not present it. A forwarded request carries the caller's
      correlation id (or the fresh one) first, and it carries the internal
      key exactly when its path is not public: public paths get none. */
  lemma PipelineContract(cfg: GatewayConfig, req: Request, freshId: string)
    ensures Pipeline(cfg, req, freshId) == Respond(Unauthorized) <==>
      !IsExcluded(req.path) && KeyConfigured(cfg) && !KeyPresented(cfg, req)
    ensures Pipeline(cfg, req, freshId).Forward? <==> !(!IsExcluded(req.path) && KeyConfigured(cfg) && !KeyPresented(cfg, req))
    ensures Pipeline(cfg, req, freshId).Forward? ==>
      var out := Pipeline(cfg, req, freshId).request;
      && out.path == req.path
      && GetFirst(out.headers, CorrelationIdHeader) == Some(GetFirst(req.headers, CorrelationIdHeader).GetOr(freshId))
      && Values(out.headers, InternalKeyHeader) ==
         Values(req.headers, InternalKeyHeader) + (if IsExcluded(req.path) then [] else [cfg.internalServiceKey])
      && Values(out.headers, ApiKeyHeader) == Values(req.headers, ApiKeyHeader)
  {
    HeaderNamesDiffer();
    PipelineIsKeyCheckAfterTagging(cfg, req, freshId);
    var tagged := CorrelationIdFilter(req, freshId);
    TaggingKeepsKeys(req, freshId);
    assert KeyPresented(cfg, tagged) == KeyPresented(cfg, req);
    ApiKeyFilterOutcomes(cfg, tagged);
    if IsExcluded(req.path) {
      assert Pipeline(cfg, req, freshId) == Forward(tagged);
    } else if KeyConfigured(cfg) && !KeyPresented(cfg, req) {
      assert Pipeline(cfg, req, freshId) == Respond(Unauthorized);
    } else {
      var out := WithInternalKey(cfg, tagged);
      assert Pipeline(cfg, req, freshId) == Forward(out);
      assert Values(out.headers, CorrelationIdHeader) == Values(tagged.headers, CorrelationIdHeader);
      assert Values(out.headers, ApiKeyHeader) == Values(tagged.headers, ApiKeyHeader);
    }
  }
}

=== FILE: headers.dfy ===
/** HTTP requests as the filters see them: a path and a multi-valued header
    map whose names compare case-insensitively. */
module Http {

  import opened Wrappers
  import opened Text

  /** Header values keyed by the lower-cased header name, each in arrival
      order. */
  datatype Headers = Headers(fields: map<string, seq<string>>)

  datatype Request = Request(path: string, headers: Headers)

  /** The header the gateway uses to vouch for a request to the storage
      tier, and the storage tier checks. */
  const InternalKeyHeader: string := "X-INTERNAL-KEY"

  /** Names are compared ignoring ASCII case. */
  function Canon(name: string): string
  {
    LowerAscii(name)
  }

  /** All values of a header, empty when absent. */
  function Values(h: Headers, name: string): seq<string>
  {
    if Canon(name) in h.fields then h.fields[Canon(name)] else []
  }

  /** `getFirst` / `getHeader`: the first value, `null` when there is none. */
  function GetFirst(h: Headers, name: string): Option<string>
  {
    var vs := Values(h, name);
    if |vs| > 0 then Some(vs[0]) else None
  }

  /** `add`: appends a value, keeping the ones already there. */
  function Add(h: Headers, name: string, value: string): (r: Headers)
    ensures Values(r, name) == Values(h, name) + [value]
    ensures forall other :: Canon(other) != Canon(name) ==> Values(r, other) == Values(h, other)
  {
    Headers(h.fields[Canon(name) := Values(h, name) + [value]])
  }

  /** Appending never changes the first value of a header that had one. */
  lemma AddKeepsFirst(h: Headers, name: string, value: string)
    ensures GetFirst(Add(h, name, value), name) == if |Values(h, name)| > 0 then GetFirst(h, name) else Some(value)
  {
  }

  /** Lookup ignores ASCII case: two spellings of one name read the same
      values; a value added under one spelling reads back under the
      other. */
  lemma LookupIgnoresCase(h: Headers, a: string, b: string, value: string)
    requires Canon(a) == Canon(b)
    ensures Values(h, a) == Values(h, b) && GetFirst(h, a) == GetFirst(h, b)
    ensures Values(Add(h, a, value), b) == Values(h, b) + [value]
  {
  }

  /** The key the gateway's caller sends as "X-API-KEY" is found under
      "x-api-key" too, after any value already there. */
  lemma ApiKeyReadsBackInLowerCase(h: Headers, value: string)
    ensures Values(Add(h, "X-API-KEY", value), "x-api-key") == Values(h, "x-api-key") + [value]
    ensures GetFirst(Add(h, "X-API-KEY", value), "x-api-key") == GetFirst(Add(h, "X-API-KEY", value), "X-API-KEY")
  {
    assert Canon("X-API-KEY") == Canon("x-api-key") by {
      var u: string := "X-API-KEY";
      var l: string := "x-api-key";
      assert forall i :: 0 <= i < |u| ==> LowerChar(u[i]) == LowerChar(l[i]);
    }
    LookupIgnoresCase(h, "X-API-KEY", "x-api-key", value);
    LookupIgnoresCase(Add(h, "X-API-KEY", value), "X-API-KEY", "x-api-key", value);
  }
}

=== FILE: mappers.dfy ===
/** The entity/DTO conversions: pure record transformations with fixed
    defaults for the fields a request does not supply. Each call of
    `OffsetDateTime.now()` is a clock reading the caller passes in. */
module Mappers {

  import opened Wrappers
  import opened Entities
  import opened Requests

  /** The session as the API returns it. */
  datatype SessionResponse = SessionResponse(
    id: Option<Uuid>,
    userId: Option<string>,
    title: Option<string>,
    favorite: bool,
    createdAt: Instant,
    updatedAt: Instant
  )

  /** The message as the API returns it; `sessionId` is the owner's id. */
  datatype MessageResponse = MessageResponse(
    id: Option<Uuid>,
    sessionId: Option<Uuid>,
    sender: Option<string>,
    content: Option<string>,
    context: Option<string>,
    createdAt: Instant
  )

  // ---------- SessionMapper ----------

  /** A fresh session entity: no id yet, not a favorite, owner and title
      from the request. Each timestamp comes from its own clock reading, so
      `updated` may be later than `created`. */
  function SessionToEntity(req: CreateSessionRequest, created: Instant, updated: Instant): Session
  {
    Session(None, req.userId, req.title, false, created, updated)
  }

  /** An update mapping: writes the request's title (null included) and
      nothing else. */
  function UpdateTitleFromRequest(req: RenameSessionRequest, s: Session): Session
  {
    s.(title := req.title)
  }

  /** An update mapping: writes the request's flag and nothing else. */
  function UpdateFavoriteFromRequest(req: ToggleFavoriteRequest, s: Session): Session
  {
    s.(favorite := req.favorite)
  }

  function SessionToResponse(s: Session): SessionResponse
  {
    SessionResponse(s.id, s.userId, s.title, s.favorite, s.createdAt, s.updatedAt)
  }

  /** Element-wise mapping of a list, as the generated loop does it. */
  function SessionToResponseList(ss: seq<Session>): (r: seq<SessionResponse>)
    ensures |r| == |ss|
    ensures forall i :: 0 <= i < |ss| ==> r[i] == SessionToResponse(ss[i])
  {
    if ss == [] then [] else [SessionToResponse(ss[0])] + SessionToResponseList(ss[1..])
  }

  // ---------- MessageMapper ----------

  /** A fresh message entity attached to `session`: no id yet, created at
      `now`, sender, content and context from the request. */
  function MessageToEntity(req: MessageRequest, session: Session, now: Instant): Message
  {
    Message(None, session.id, req.sender, req.content, req.context, now)
  }

  function MessageToResponse(m: Message): MessageResponse
  {
    MessageResponse(m.id, m.sessionId, m.sender, m.content, m.context, m.createdAt)
  }

  /** Element-wise mapping of a page's content. */
  function MessageToResponseList(ms: seq<Message>): (r: seq<MessageResponse>)
    ensures |r| == |ms|
    ensures forall i :: 0 <= i < |ms| ==> r[i] == MessageToResponse(ms[i])
  {
    if ms == [] then [] else [MessageToResponse(ms[0])] + MessageToResponseList(ms[1..])
  }

  // ---------- Rows as read back ----------

  /** What a later read shows of a session whose write returned `returned`:
      every field as returned, except the timestamps, which the entity's
      generators stamp again at commit with readings no earlier. */
  predicate SessionRestamped(stored: SessionResponse, returned: SessionResponse)
  {
    && stored == returned.(createdAt := stored.createdAt, updatedAt := stored.updatedAt)
    && returned.createdAt <= stored.createdAt
    && returned.updatedAt <= stored.updatedAt
  }

  /** What a later read shows of a message whose append returned
      `returned`: every field as returned, except `createdAt`, which the
      generator stamps again at commit with a reading no earlier. */
  predicate MessageRestamped(stored: MessageResponse, returned: MessageResponse)
  {
    && stored == returned.(createdAt := stored.createdAt)
    && returned.createdAt <= stored.createdAt
  }

  // ---------- Properties ----------

  /** The session response is a faithful copy: two sessions with the same
      response are the same session. */
  lemma SessionToResponseInjective(a: Session, b: Session)
    ensures SessionToResponse(a) == SessionToResponse(b) <==> a == b
  {
  }

  /** A created session answers with exactly the request's owner and title,
      no id, not a favorite, and each timestamp as its own reading gave it. */
  lemma CreateResponseFromRequest(req: CreateSessionRequest, created: Instant, updated: Instant)
    ensures SessionToResponse(SessionToEntity(req, created, updated))
         == SessionResponse(None, req.userId, req.title, false, created, updated)
  {
  }

  /** The two update mappings touch one field each: everything a response
      shows except that field is unchanged. */
  lemma UpdatesAreFramed(s: Session, rename: RenameSessionRequest, fav: ToggleFavoriteRequest)
    ensures SessionToResponse(UpdateTitleFromRequest(rename, s))
         == SessionToResponse(s).(title := rename.title)
    ensures SessionToResponse(UpdateFavoriteFromRequest(fav, s))
         == SessionToResponse(s).(favorite := fav.favorite)
    ensures UpdateFavoriteFromRequest(fav, UpdateFavoriteFromRequest(fav, s))
         == UpdateFavoriteFromRequest(fav, s)
  {
  }

  /** Request to entity to response: sender, content and context come back
      unchanged, the session id is the attached session's id, and the id is
      not invented by the mapper. */
  lemma MessageRoundTrip(req: MessageRequest, session: Session, now: Instant)
    ensures var r := MessageToResponse(MessageToEntity(req, session, now));
      && r.sender == req.sender && r.content == req.content && r.context == req.context
      && r.sessionId == session.id && r.id.None? && r.createdAt == now
  {
  }

  /** Mapping commutes with concatenation, so mapping a page of a list is
      the page of the mapped list. */
  lemma {:induction false} MessageToResponseListAppend(a: seq<Message>, b: seq<Message>)
    ensures MessageToResponseList(a + b) == MessageToResponseList(a) + MessageToResponseList(b)
  {
    var l := MessageToResponseList(a + b);
    var r := MessageToResponseList(a) + MessageToResponseList(b);
    assert |l| == |r|;
    forall i | 0 <= i < |l| ensures l[i] == r[i] {
      if i < |a| { assert (a + b)[i] == a[i]; } else { assert (a + b)[i] == b[i - |a|]; }
    }
  }
}

=== FILE: message_service.dfy ===
/** The message operations of the storage service: an append gated on the
    session existing, and a paginated read in creation order. Each call is
    one transaction. */
module MessageService {

  import opened Wrappers
  import opened Text
  import opened Entities
  import opened Requests
  import opened Mappers
  import opened Errors
  import opened Paging
  import opened Store
  import opened SessionService

  /** A message entity that fails Bean Validation (a blank sender or
      content, or a sender over 255 chars) aborts the commit; the handler
      sees an exception none of its dedicated handlers claims. */
  const MessageCommitFailure: ServiceError := Unexpected(Some("Could not commit JPA transaction"))

  /** Thrown by `PageRequest.of` for a negative page index. */
  const NegativePageIndex: ServiceError := Unexpected(Some("Page index must not be less than zero"))

  /** Thrown by `PageRequest.of` for a page size below one. */
  const PageSizeBelowOne: ServiceError := Unexpected(Some("Page size must not be less than one"))

  /** Every thread other than session `sid`'s is stored unchanged in `st'`. */
  predicate OtherThreadsKept(st: Store, st': Store, sid: Uuid)
  {
    forall k :: k in st.messages && k != sid ==> k in st'.messages && st'.messages[k] == st.messages[k]
  }

  // ---------- addMessage ----------

  /** Looks the session up, maps the request to an entity attached to it and
      stamped with the next instant, assigns the next fresh id, and returns
      the message so. The insert flushed at commit appends the message to
      the session's thread, with `createdAt` stamped again by the entity's
      generator, `lag` later. */
  function AddMessage(st: Store, sid: Uuid, req: MessageRequest, lag: nat): (o: Outcome<MessageResponse>)
    ensures o.result.Err? ==> o.store == st
    ensures sid !in st.sessions ==> o.result == Err(ChatSessionNotFoundWithId(sid))
    ensures Valid(st) && sid in st.sessions ==>
      (o.result.Ok? <==> NotBlank(req.sender) && SizeAtMost(req.sender, MaxSenderLength) && NotBlank(req.content))
    ensures o.result.Ok? ==>
      var t := Thread(o.store, sid);
      && sid in st.sessions
      && |t| == |Thread(st, sid)| + 1 && t[..|t| - 1] == Thread(st, sid)
      && MessageRestamped(MessageToResponse(t[|t| - 1]), o.result.value)
      && t[|t| - 1].createdAt == o.store.clock == o.result.value.createdAt + lag
      && o.result.value.id == Some(st.nextId) && o.result.value.createdAt > st.clock
      && o.result.value.sender == req.sender && o.result.value.content == req.content
      && o.result.value.context == req.context
      && OtherThreadsKept(st, o.store, sid)
      && o.store.sessions == st.sessions
    ensures Valid(st) ==> Valid(o.store)
    ensures Valid(st) && o.result.Ok? ==> o.result.value.sessionId == Some(sid)
  {
    if sid !in st.sessions then Outcome(st, Err(ChatSessionNotFoundWithId(sid)))
    else
      var now := st.clock + 1;
      var entity := MessageToEntity(req, st.sessions[sid], now);
      if !MessageInsertable(entity) then Outcome(st, Err(MessageCommitFailure))
      else
        var saved := entity.(id := Some(st.nextId));
        var row := saved.(createdAt := now + lag);
        AppendExtendsThread(st, sid, row);
        assert Valid(st) ==> Valid(Append(st, sid, row)) by {
          if Valid(st) {
            assert SessionRowOk(st, sid);
            AppendKeepsValid(st, sid, row);
          }
        }
        Outcome(Append(st, sid, row), Ok(MessageToResponse(saved)))
  }

  /** The store after `m` is committed to session `sid`'s thread at the
      instant it carries. */
  function Append(st: Store, sid: Uuid, m: Message): Store
  {
    st.(messages := st.messages[sid := Thread(st, sid) + [m]], nextId := st.nextId + 1, clock := m.createdAt)
  }

  /** Appending grows session `sid`'s thread by `m` at the end and touches
      no other session or thread. */
  lemma AppendExtendsThread(st: Store, sid: Uuid, m: Message)
    ensures var t := Thread(Append(st, sid, m), sid);
      && |t| == |Thread(st, sid)| + 1 && t[..|t| - 1] == Thread(st, sid) && t[|t| - 1] == m
    ensures OtherThreadsKept(st, Append(st, sid, m), sid)
    ensures Append(st, sid, m).sessions == st.sessions
  {
    var t := Thread(Append(st, sid, m), sid);
    assert t == Thread(st, sid) + [m];
    assert t[..|t| - 1] == Thread(st, sid);
  }

  /** Committing a well-formed message, with a fresh id and a new instant,
      to an existing session keeps the store consistent. */
  lemma AppendKeepsValid(st: Store, sid: Uuid, m: Message)
    requires Valid(st) && sid in st.sessions
    requires MessageInsertable(m) && m.sessionId == Some(sid)
    requires m.id == Some(st.nextId) && m.createdAt > st.clock
    ensures Valid(Append(st, sid, m))
  {
    var st' := Append(st, sid, m);
    assert SessionRowOk(st, sid);
    assert ThreadOk(st, sid);
    forall k | k in st'.sessions ensures SessionRowOk(st', k) {
      assert SessionRowOk(st, k);
    }
    forall k | k in st'.messages ensures ThreadOk(st', k) {
      assert ThreadOk(st, k);
    }
  }

  /** The request bound and the entity bound differ: `@Valid` accepts a
      256-char sender, and the append then fails at commit, a 500 rather
      than a 400. */
  lemma SenderBoundOnlyOnEntity(st: Store, sid: Uuid, lag: nat)
    requires Valid(st) && sid in st.sessions
    ensures var req := MessageRequest(Some(seq(MaxSenderLength + 1, _ => 'a')), Some("Hi"), None);
      && MessageRequestErrors(req) == []
      && AddMessage(st, sid, req, lag).result == Err(MessageCommitFailure)
      && Handle(MessageCommitFailure).httpStatus == InternalServerError
  {
    var sender := seq(MaxSenderLength + 1, _ => 'a');
    assert sender[0] == 'a';
    assert "Hi"[0] == 'H';
  }

  // ---------- getMessagesBySessionId ----------

  predicate ResponsesAscending(rs: seq<MessageResponse>)
  {
    forall i, j :: 0 <= i < j < |rs| ==> rs[i].createdAt <= rs[j].createdAt
  }

  /** Checks the session exists, builds the page request, and returns page
      `page` of the session's messages in creation order, mapped to
      responses, with the thread's full length as the total. */
  function GetMessagesBySessionId(st: Store, sid: Uuid, page: int, size: int): (r: Result<Page<MessageResponse>, ServiceError>)
    ensures r.Ok? <==> sid in st.sessions && page >= 0 && size >= 1
    ensures sid !in st.sessions ==> r == Err(ChatSessionNotFoundWithId(sid))
    ensures sid in st.sessions && page < 0 ==> r == Err(NegativePageIndex)
    ensures sid in st.sessions && page >= 0 && size < 1 ==> r == Err(PageSizeBelowOne)
    ensures r.Ok? ==>
      && r.value.content == PageOf(MessageToResponseList(Thread(st, sid)), page, size)
      && r.value.totalElements == |Thread(st, sid)|
      && r.value.number == page && r.value.size == size
    ensures r.Ok? && Valid(st) ==>
      && ResponsesAscending(r.value.content)
      && forall i :: 0 <= i < |r.value.content| ==> r.value.content[i].sessionId == Some(sid)
  {
    if sid !in st.sessions then Err(ChatSessionNotFoundWithId(sid))
    else if page < 0 then Err(NegativePageIndex)
    else if size < 1 then Err(PageSizeBelowOne)
    else
      var thread := Thread(st, sid);
      var content := MessageToResponseList(PageOf(thread, page, size));
      MappingCommutesWithPaging(thread, page, size);
      PageOfValidThread(st, sid, page, size);
      Ok(Page(content, |thread|, page, size))
  }

  /** In a consistent store every page of a thread is in creation order and
      holds only that session's messages. */
  lemma PageOfValidThread(st: Store, sid: Uuid, page: nat, size: nat)
    requires size >= 1
    ensures var p := PageOf(MessageToResponseList(Thread(st, sid)), page, size);
      Valid(st) && sid in st.sessions ==>
      && ResponsesAscending(p)
      && forall i :: 0 <= i < |p| ==> p[i].sessionId == Some(sid)
  {
    if Valid(st) && sid in st.sessions {
      var all := MessageToResponseList(Thread(st, sid));
      ValidThreadResponses(st, sid);
      PageKeepsOrderAndOwner(all, sid, page, size);
    }
  }

  /** A page of responses in creation order that all name session `sid` is
      itself in creation order and names only `sid`. */
  lemma PageKeepsOrderAndOwner(all: seq<MessageResponse>, sid: Uuid, page: nat, size: nat)
    requires size >= 1
    requires ResponsesAscending(all) && forall i :: 0 <= i < |all| ==> all[i].sessionId == Some(sid)
    ensures var p := PageOf(all, page, size);
      && ResponsesAscending(p)
      && forall i :: 0 <= i < |p| ==> p[i].sessionId == Some(sid)
  {
    var p := PageOf(all, page, size);
    var off := page * size;
    PageOfAt(all, page, size, off);
    forall i, j | 0 <= i < j < |p| ensures p[i].createdAt <= p[j].createdAt {
      assert p[i] == all[off + i] && p[j] == all[off + j];
    }
  }

  /** In a consistent store a whole thread, mapped to responses, is in
      creation order and names its own session. */
  lemma ValidThreadResponses(st: Store, sid: Uuid)
    requires Valid(st) && sid in st.sessions
    ensures var all := MessageToResponseList(Thread(st, sid));
      && ResponsesAscending(all)
      && forall i :: 0 <= i < |all| ==> all[i].sessionId == Some(sid)
  {
    assert ThreadOk(st, sid);
  }

  /** Mapping a page is taking the page of the mapped thread. */
  lemma MappingCommutesWithPaging(ms: seq<Message>, page: nat, size: nat)
    requires size >= 1
    ensures MessageToResponseList(PageOf(ms, page, size)) == PageOf(MessageToResponseList(ms), page, size)
  {
    var a := page * size;
    var l := MessageToResponseList(PageOf(ms, page, size));
    var r := PageOf(MessageToResponseList(ms), page, size);
    PageOfAt(ms, page, size, a);
    PageOfAt(MessageToResponseList(ms), page, size, a);
    assert |l| == |r|;
    forall i | 0 <= i < |l| ensures l[i] == r[i] {
    }
  }

  /** The contents of pages `0 .. k - 1`, read one call at a time. */
  function ReadPages(st: Store, sid: Uuid, size: nat, k: nat): seq<MessageResponse>
    requires sid in st.sessions && size >= 1
  {
    if k == 0 then [] else ReadPages(st, sid, size, k - 1) + GetMessagesBySessionId(st, sid, k - 1, size).value.content
  }

  /** Reading every page in turn returns the session's whole thread, each
      message once, in creation order, whatever the page size. */
  lemma ReadingEveryPageYieldsThread(st: Store, sid: Uuid, size: nat)
    requires sid in st.sessions && size >= 1
    ensures ReadPages(st, sid, size, PageCount(|Thread(st, sid)|, size))
         == MessageToResponseList(Thread(st, sid))
  {
    var all := MessageToResponseList(Thread(st, sid));
    ReadPagesArePages(st, sid, size, PageCount(|all|, size));
    AllPagesReassemble(all, size);
  }

  lemma {:induction false} ReadPagesArePages(st: Store, sid: Uuid, size: nat, k: nat)
    requires sid in st.sessions && size >= 1
    ensures ReadPages(st, sid, size, k) == Pages(MessageToResponseList(Thread(st, sid)), size, k)
  {
    if k > 0 {
      ReadPagesArePages(st, sid, size, k - 1);
    }
  }

  /** An appended message is at once visible: the last element of the
      last page is the returned message as committed, and the total grows
      by one. */
  lemma AppendedMessageIsVisible(st: Store, sid: Uuid, req: MessageRequest, lag: nat, size: nat)
    requires size >= 1
    requires AddMessage(st, sid, req, lag).result.Ok?
    ensures var o := AddMessage(st, sid, req, lag);
      var n := |Thread(o.store, sid)|;
      var page := GetMessagesBySessionId(o.store, sid, (n - 1) / size, size);
      && page.Ok?
      && page.value.totalElements == |Thread(st, sid)| + 1
      && (n - 1) % size < |page.value.content|
      && MessageRestamped(page.value.content[(n - 1) % size], o.result.value)
  {
    var o := AddMessage(st, sid, req, lag);
    var t := Thread(o.store, sid);
    assert sid in o.store.sessions && |t| >= 1;
    assert MessageRestamped(MessageToResponse(t[|t| - 1]), o.result.value);
    LastMessageOnLastPage(o.store, sid, size);
  }

  /** The newest message of a non-empty thread is read back from page
      `(n - 1) / size` at offset `(n - 1) % size`, where `n` is the
      thread's length. */
  lemma LastMessageOnLastPage(st: Store, sid: Uuid, size: nat)
    requires size >= 1 && sid in st.sessions && |Thread(st, sid)| >= 1
    ensures var t := Thread(st, sid);
      var n := |t|;
      var page := GetMessagesBySessionId(st, sid, (n - 1) / size, size);
      && page.Ok?
      && page.value.totalElements == n
      && (n - 1) % size < |page.value.content|
      && page.value.content[(n - 1) % size] == MessageToResponse(t[n - 1])
  {
    var t := Thread(st, sid);
    var n := |t|;
    var all := MessageToResponseList(t);
    var q := (n - 1) / size;
    PositionOnOnePage(all, n - 1, size, q);
  }

  /** After a session is deleted, its messages can no longer be read and no
      message can be added to it. */
  lemma DeletedSessionTakesItsMessages(st: Store, sid: Uuid, req: MessageRequest, lag: nat, page: int, size: int)
    requires sid in st.sessions
    ensures var st' := DeleteSession(st, sid).store;
      && Thread(st', sid) == []
      && GetMessagesBySessionId(st', sid, page, size) == Err(ChatSessionNotFoundWithId(sid))
      && AddMessage(st', sid, req, lag) == Outcome(st', Err(ChatSessionNotFoundWithId(sid)))
  {
  }

  /** Two appends to a fresh session, "Hello" from "user123" then "Hi" from
      "assistant", read back from page 0 of size 10 in that order with a
      total of 2, whatever the clock does in between. */
  lemma TwoMessageScenario(clk: CreateReadings, lag1: nat, lag2: nat)
    ensures
      var o1 := CreateSession(Empty, CreateSessionRequest(Some("u1"), Some("Demo")), clk);
      && o1.result.Ok?
      && var sid := o1.result.value.id.value;
      var o2 := AddMessage(o1.store, sid, MessageRequest(Some("user123"), Some("Hello"), None), lag1);
      var o3 := AddMessage(o2.store, sid, MessageRequest(Some("assistant"), Some("Hi"), None), lag2);
      var page := GetMessagesBySessionId(o3.store, sid, 0, 10);
      && o2.result.Ok? && o3.result.Ok? && page.Ok?
      && page.value.totalElements == 2 && |page.value.content| == 2
      && MessageRestamped(page.value.content[0], o2.result.value)
      && MessageRestamped(page.value.content[1], o3.result.value)
      && page.value.content[0].sender == Some("user123") && page.value.content[0].content == Some("Hello")
      && page.value.content[1].sender == Some("assistant") && page.value.content[1].content == Some("Hi")
  {
    EmptyValid();
    var o1 := CreateSession(Empty, CreateSessionRequest(Some("u1"), Some("Demo")), clk);
    var sid := o1.result.value.id.value;
    assert o1.result.Ok? && Valid(o1.store) && sid in o1.store.sessions && Thread(o1.store, sid) == [];
    var r1 := MessageRequest(Some("user123"), Some("Hello"), None);
    var r2 := MessageRequest(Some("assistant"), Some("Hi"), None);
    assert NotBlank(r1.sender) && NotBlank(r1.content) by {
      assert "user123"[0] == 'u' && "Hello"[0] == 'H';
    }
    assert NotBlank(r2.sender) && NotBlank(r2.content) by {
      assert "assistant"[0] == 'a' && "Hi"[0] == 'H';
    }
    TwoAppendsReadBack(o1.store, sid, r1, r2, lag1, lag2);
  }

  /** Two valid appends to an empty thread are read back from page 0 of
      size 10 in the order they were made, each as committed, with a total
      of 2. */
  lemma TwoAppendsReadBack(st: Store, sid: Uuid, r1: MessageRequest, r2: MessageRequest, lag1: nat, lag2: nat)
    requires Valid(st) && sid in st.sessions && Thread(st, sid) == []
    requires NotBlank(r1.sender) && SizeAtMost(r1.sender, MaxSenderLength) && NotBlank(r1.content)
    requires NotBlank(r2.sender) && SizeAtMost(r2.sender, MaxSenderLength) && NotBlank(r2.content)
    ensures var o2 := AddMessage(st, sid, r1, lag1);
      var o3 := AddMessage(o2.store, sid, r2, lag2);
      var page := GetMessagesBySessionId(o3.store, sid, 0, 10);
      && o2.result.Ok? && o3.result.Ok? && page.Ok?
      && page.value.totalElements == 2 && |page.value.content| == 2
      && MessageRestamped(page.value.content[0], o2.result.value)
      && MessageRestamped(page.value.content[1], o3.result.value)
  {
    var o2 := AddMessage(st, sid, r1, lag1);
    ValidAppendIsReadBack(st, sid, r1, lag1);
    var o3 := AddMessage(o2.store, sid, r2, lag2);
    ValidAppendIsReadBack(o2.store, sid, r2, lag2);
    var all := MessageToResponseList(Thread(o3.store, sid));
    assert |all| == 2;
    WholeThreadOnFirstPage(o3.store, sid, 10);
  }

  /** In a consistent store, a valid message appended to an existing
      session succeeds, keeps the store consistent, and the thread as read
      back gains exactly one response at its end: the returned one as
      committed. */
  lemma ValidAppendIsReadBack(st: Store, sid: Uuid, req: MessageRequest, lag: nat)
    requires Valid(st) && sid in st.sessions
    requires NotBlank(req.sender) && SizeAtMost(req.sender, MaxSenderLength) && NotBlank(req.content)
    ensures var o := AddMessage(st, sid, req, lag);
      var all := MessageToResponseList(Thread(o.store, sid));
      && o.result.Ok? && Valid(o.store) && sid in o.store.sessions
      && |all| == |Thread(st, sid)| + 1
      && all[..|all| - 1] == MessageToResponseList(Thread(st, sid))
      && MessageRestamped(all[|all| - 1], o.result.value)
  {
    var o := AddMessage(st, sid, req, lag);
    var t := Thread(o.store, sid);
    assert t == Thread(st, sid) + [t[|t| - 1]];
    MessageToResponseListAppend(Thread(st, sid), [t[|t| - 1]]);
    var all := MessageToResponseList(t);
    assert all[..|all| - 1] == MessageToResponseList(Thread(st, sid));
  }

  /** A thread no longer than the page size is read whole from page 0. */
  lemma WholeThreadOnFirstPage(st: Store, sid: Uuid, size: nat)
    requires sid in st.sessions && 1 <= size && |Thread(st, sid)| <= size
    ensures GetMessagesBySessionId(st, sid, 0, size)
         == Ok(Page(MessageToResponseList(Thread(st, sid)), |Thread(st, sid)|, 0, size))
  {
    var all := MessageToResponseList(Thread(st, sid));
    assert PageOf(all, 0, size) == all;
  }
}

=== FILE: paging.dfy ===
/** Zero-based offset pagination, as a page request of index `page` and
    size `size` cuts an ordered result. */
module Paging {

  function Min(a: int, b: int): int
  {
    if a <= b then a else b
  }

  /** One page of a result: its content plus the metadata a client needs to
      ask for the others. */
  datatype Page<T> = Page(content: seq<T>, totalElements: nat, number: nat, size: nat)

  /** Page `page` of `xs`: the elements at positions
      `page * size` up to, not including, `min((page + 1) * size, |xs|)`;
      empty once the offset is past the end. */
  function PageOf<T>(xs: seq<T>, page: nat, size: nat): (r: seq<T>)
    requires size >= 1
    ensures |r| == if page * size >= |xs| then 0 else Min(size, |xs| - page * size)
  {
    if page * size >= |xs| then [] else xs[page * size .. Min((page + 1) * size, |xs|)]
  }

  /** Element `i` of page `page` is element `a + i` of the whole result,
      where `a == page * size` is the page's offset. */
  lemma PageOfAt<T>(xs: seq<T>, page: nat, size: nat, a: nat)
    requires size >= 1 && a == page * size
    ensures forall i :: 0 <= i < |PageOf(xs, page, size)| ==> a + i < |xs| && PageOf(xs, page, size)[i] == xs[a + i]
  {
    PageIsSlice(xs, page, size, a);
  }

  /** The number of pages needed to hold `n` elements, `ceil(n / size)`. */
  function PageCount(n: nat, size: nat): (c: nat)
    requires size >= 1
    ensures c * size >= n
    ensures c == 0 || (c - 1) * size < n
  {
    (n + size - 1) / size
  }

  /** Pages `0 .. k - 1` of `xs`, one after the other. */
  function Pages<T>(xs: seq<T>, size: nat, k: nat): seq<T>
    requires size >= 1
  {
    if k == 0 then [] else Pages(xs, size, k - 1) + PageOf(xs, k - 1, size)
  }

  /** The first `k` pages are exactly the first `min(e, |xs|)` elements, in
      order, where `e == k * size` is where page `k` would start. */
  lemma {:induction false} PagesArePrefix<T>(xs: seq<T>, size: nat, k: nat, e: nat)
    requires size >= 1 && e == k * size
    ensures Pages(xs, size, k) == xs[..Min(e, |xs|)]
  {
    if k > 0 {
      var a := (k - 1) * size;
      PagesArePrefix(xs, size, k - 1, a);
      MulPred(k, size, a);
      PageIsSlice(xs, k - 1, size, a);
      SlicesJoin(xs, Min(a, |xs|), Min(a + size, |xs|));
    }
  }

  /** Page `page`, starting at `a == page * size`, is the slice between its
      clamped start and the clamped start of the next page. */
  lemma PageIsSlice<T>(xs: seq<T>, page: nat, size: nat, a: nat)
    requires size >= 1 && a == page * size
    ensures PageOf(xs, page, size) == xs[Min(a, |xs|) .. Min(a + size, |xs|)]
  {
    assert (page + 1) * size == a + size;
  }

  lemma MulPred(k: nat, size: nat, a: nat)
    requires k >= 1 && a == (k - 1) * size
    ensures k * size == a + size
  {
  }

  lemma SlicesJoin<T>(xs: seq<T>, lo: nat, hi: nat)
    requires lo <= hi <= |xs|
    ensures xs[..lo] + xs[lo..hi] == xs[..hi]
  {
  }

  /** Reading every page in turn yields the whole result exactly once: no
      gaps and no duplicates, whether or not `size` divides `|xs|`. */
  lemma AllPagesReassemble<T>(xs: seq<T>, size: nat)
    requires size >= 1
    ensures Pages(xs, size, PageCount(|xs|, size)) == xs
  {
    var c := PageCount(|xs|, size);
    PagesArePrefix(xs, size, c, c * size);
  }

  /** Every page from `PageCount` on is empty, and every page before it is
      not. */
  lemma PagesPastTheEnd<T>(xs: seq<T>, page: nat, size: nat)
    requires size >= 1
    ensures page >= PageCount(|xs|, size) <==> PageOf(xs, page, size) == []
  {
    var c := PageCount(|xs|, size);
    if page >= c {
      MulMonotone(c, page, size);
    } else {
      MulMonotone(page, c - 1, size);
    }
  }

  /** Page contents never overlap: position `pos` of `xs` is on page
      `pos / size` at offset `pos % size`, and on no other page. */
  lemma PositionOnOnePage<T>(xs: seq<T>, pos: nat, size: nat, q: nat)
    requires size >= 1 && pos < |xs|
    ensures var p := pos / size;
      pos % size < |PageOf(xs, p, size)| && PageOf(xs, p, size)[pos % size] == xs[pos]
    ensures q * size <= pos < (q + 1) * size <==> q == pos / size
  {
    var p := pos / size;
    PageOfAt(xs, p, size, p * size);
    assert p * size + pos % size == pos;
    if q < p {
      MulMonotone(q + 1, p, size);
    } else if q > p {
      MulMonotone(p + 1, q, size);
    }
  }

  lemma MulMonotone(a: nat, b: nat, size: nat)
    requires a <= b
    ensures a * size <= b * size
  {
    assert b * size == a * size + (b - a) * size;
  }
}

=== FILE: requests.dfy ===
/** The request bodies the storage API accepts and the field errors
    `@Valid` reports for them before any service method runs. */
module Requests {

  import opened Wrappers
  import opened Text

  /** Body of "create session": owner and title, both possibly `null`. */
  datatype CreateSessionRequest = CreateSessionRequest(userId: Option<string>, title: Option<string>)

  /** Body of "rename session". */
  datatype RenameSessionRequest = RenameSessionRequest(title: Option<string>)

  /** Body of "set favorite": a primitive boolean, so never `null`. */
  datatype ToggleFavoriteRequest = ToggleFavoriteRequest(favorite: bool)

  /** Body of "add message"; `context` is opaque and optional. */
  datatype MessageRequest = MessageRequest(sender: Option<string>, content: Option<string>, context: Option<string>)

  /** One rejected field and the message of the annotation it broke. */
  datatype FieldError = FieldError(field: string, message: string)

  /** `@Size(max = 100)` on both title fields. */
  const MaxTitleLength: nat := 100

  /** The errors of one `@NotBlank` field. */
  function NotBlankErrors(field: string, value: Option<string>, message: string): seq<FieldError>
  {
    if NotBlank(value) then [] else [FieldError(field, message)]
  }

  /** The title rule shared by the create and rename bodies:
      `@NotBlank` and `@Size(max = 100)`. The validator reports a field's
      errors in no promised order; the model lists them in declaration
      order. */
  function TitleErrors(title: Option<string>): seq<FieldError>
  {
    NotBlankErrors("title", title, "Title cannot be blank")
    + (if SizeAtMost(title, MaxTitleLength) then []
       else [FieldError("title", "Title must not exceed 100 characters")])
  }

  function CreateSessionErrors(req: CreateSessionRequest): seq<FieldError>
  {
    NotBlankErrors("userId", req.userId, "User ID cannot be blank") + TitleErrors(req.title)
  }

  function RenameSessionErrors(req: RenameSessionRequest): seq<FieldError>
  {
    TitleErrors(req.title)
  }

  /** `sender` and `content` are `@NotBlank`; `context` carries no
      annotation, and `sender` has no size bound at this layer. */
  function MessageRequestErrors(req: MessageRequest): seq<FieldError>
  {
    NotBlankErrors("sender", req.sender, "Sender is required")
    + NotBlankErrors("content", req.content, "Message content cannot be blank")
  }

  /** The fields named by a list of errors. */
  function FieldsOf(errs: seq<FieldError>): set<string>
  {
    set i | 0 <= i < |errs| :: errs[i].field
  }

  /** A title passes exactly when it is non-null, has a char above U+0020
      and has at most 100 chars; a failing title is reported against the
      `title` field only. */
  lemma TitleRule(title: Option<string>)
    ensures TitleErrors(title) == [] <==>
      title.Some? && !TrimsToEmpty(title.value) && |title.value| <= MaxTitleLength
    ensures FieldsOf(TitleErrors(title)) == if TitleErrors(title) == [] then {} else {"title"}
  {
    var e := TitleErrors(title);
    if e != [] {
      assert e[0].field == "title";
    }
  }

  /** A create request is valid exactly when the owner is non-blank and the
      title follows the title rule; the details name precisely the fields
      that failed. */
  lemma CreateSessionValidity(req: CreateSessionRequest)
    ensures CreateSessionErrors(req) == [] <==>
      && req.userId.Some? && !TrimsToEmpty(req.userId.value)
      && req.title.Some? && !TrimsToEmpty(req.title.value)
      && |req.title.value| <= MaxTitleLength
    ensures FieldsOf(CreateSessionErrors(req)) ==
      (if NotBlank(req.userId) then {} else {"userId"})
      + (if TitleErrors(req.title) == [] then {} else {"title"})
  {
    TitleRule(req.title);
    var u := NotBlankErrors("userId", req.userId, "User ID cannot be blank");
    var t := TitleErrors(req.title);
    assert CreateSessionErrors(req) == u + t;
    assert FieldsOf(u + t) == FieldsOf(u) + FieldsOf(t) by {
      forall f | f in FieldsOf(u + t) ensures f in FieldsOf(u) + FieldsOf(t) {
        var i :| 0 <= i < |u + t| && (u + t)[i].field == f;
        if i < |u| { assert u[i].field == f; } else { assert t[i - |u|].field == f; }
      }
      forall f | f in FieldsOf(u) + FieldsOf(t) ensures f in FieldsOf(u + t) {
        if f in FieldsOf(u) {
          var i :| 0 <= i < |u| && u[i].field == f;
          assert (u + t)[i].field == f;
        } else {
          var i :| 0 <= i < |t| && t[i].field == f;
          assert (u + t)[|u| + i].field == f;
        }
      }
    }
    if !NotBlank(req.userId) {
      assert u[0].field == "userId";
    }
  }

  /** Renaming applies the very rule the create request applies to its
      title: with a valid owner, the two bodies accept the same titles. */
  lemma RenameUsesCreateTitleRule(userId: Option<string>, title: Option<string>)
    requires NotBlank(userId)
    ensures RenameSessionErrors(RenameSessionRequest(title)) == [] <==>
            CreateSessionErrors(CreateSessionRequest(userId, title)) == []
  {
  }

  /** Whitespace-only and empty strings (every char at most U+0020) are
      rejected in each `@NotBlank` field. */
  lemma BlankFieldsRejected(s: string, other: Option<string>, context: Option<string>)
    requires TrimsToEmpty(s)
    ensures FieldError("userId", "User ID cannot be blank") in CreateSessionErrors(CreateSessionRequest(Some(s), other))
    ensures FieldError("title", "Title cannot be blank") in CreateSessionErrors(CreateSessionRequest(other, Some(s)))
    ensures FieldError("title", "Title cannot be blank") in RenameSessionErrors(RenameSessionRequest(Some(s)))
    ensures FieldError("sender", "Sender is required") in MessageRequestErrors(MessageRequest(Some(s), other, context))
    ensures FieldError("content", "Message content cannot be blank") in MessageRequestErrors(MessageRequest(other, Some(s), context))
  {
  }

  /** A message request is valid exactly when sender and content are
      non-blank; `context` never affects validity, and neither does the
      length of `sender`. */
  lemma MessageRequestValidity(req: MessageRequest, otherContext: Option<string>)
    ensures MessageRequestErrors(req) == [] <==>
      req.sender.Some? && !TrimsToEmpty(req.sender.value)
      && req.content.Some? && !TrimsToEmpty(req.content.value)
    ensures MessageRequestErrors(req) == MessageRequestErrors(req.(context := otherContext))
  {
  }
}

=== FILE: session_service.dfy ===
/** The session operations of the storage service. Each call is one
    transaction: on a thrown error the store is left as it was. Not-found
    messages render the id with `NatText`. */
module SessionService {

  import opened Wrappers
  import opened Text
  import opened Entities
  import opened Requests
  import opened Mappers
  import opened Errors
  import opened Store

  /** Thrown by rename, delete and get when the id is unknown. */
  function SessionNotFoundWithId(id: Uuid): ServiceError
  {
    ChatSessionNotFound("Session not found with ID: " + NatText(id))
  }

  function ChatSessionNotFoundWithId(id: Uuid): ServiceError
  {
    ChatSessionNotFound("Chat session not found with id: " + NatText(id))
  }

  /** What the database reports when a NOT NULL column of
      `chat_sessions` would be left empty. */
  const SessionNotNullViolation: ServiceError :=
    DataIntegrityViolation("NULL not allowed for a NOT NULL column of chat_sessions")

  /** Every session other than `id` is stored unchanged in `st'`. */
  predicate OtherSessionsKept(st: Store, st': Store, id: Uuid)
  {
    forall k :: k in st.sessions && k != id ==> k in st'.sessions && st'.sessions[k] == st.sessions[k]
  }

  // ---------- createSession ----------

  /** How the clock moves during one create. The service reads it once
      per timestamp (overwriting the mapper's readings), `serviceGap`
      apart, and those readings are what the call returns. The entity's
      timestamp generators read it again when the insert is flushed at
      commit, `commitLag` after the service's second reading and `rowGap`
      apart, and those readings are what the row holds. */
  datatype CreateReadings = CreateReadings(serviceGap: nat, commitLag: nat, rowGap: nat)

  /** Maps the request to a new entity, assigns the next fresh id and
      stores it with an empty thread. The response carries the service's
      timestamps; the row carries the commit-time ones. */
  function CreateSession(st: Store, req: CreateSessionRequest, clk: CreateReadings): (o: Outcome<SessionResponse>)
    ensures o.result.Err? ==> o.store == st && o.result.error == SessionNotNullViolation
    ensures o.result.Ok? <==> req.userId.Some? && req.title.Some?
    ensures o.result.Ok? ==>
      var r := o.result.value;
      && r.id == Some(st.nextId) && r.id.value in o.store.sessions
      && var row := o.store.sessions[r.id.value];
      && SessionRestamped(SessionToResponse(row), r)
      && r.userId == req.userId && r.title == req.title && !r.favorite
      && st.clock < r.createdAt <= r.updatedAt <= row.createdAt <= row.updatedAt == o.store.clock
      && r.updatedAt - r.createdAt == clk.serviceGap
      && row.createdAt - r.updatedAt == clk.commitLag
      && row.updatedAt - row.createdAt == clk.rowGap
      && Thread(o.store, r.id.value) == []
      && OtherSessionsKept(st, o.store, r.id.value)
      && (forall k :: k in st.messages && k != r.id.value ==> k in o.store.messages && o.store.messages[k] == st.messages[k])
      && o.store.sessions.Keys == st.sessions.Keys + {r.id.value}
    ensures Valid(st) && o.result.Ok? ==> Valid(o.store) && o.result.value.id.value !in st.sessions
  {
    var created := st.clock + 1;
    var updated := created + clk.serviceGap;
    var entity := SessionToEntity(req, created, updated);
    if !SessionInsertable(entity) then Outcome(st, Err(SessionNotNullViolation))
    else
      var id := st.nextId;
      var saved := entity.(id := Some(id));
      var rowCreated := updated + clk.commitLag;
      var row := saved.(createdAt := rowCreated, updatedAt := rowCreated + clk.rowGap);
      var st' := Store(st.sessions[id := row], st.messages[id := []], id + 1, row.updatedAt);
      Outcome(st', Ok(SessionToResponse(saved)))
  }

  /** Any request that passes `@Valid` is stored. */
  lemma ValidCreateRequestSucceeds(st: Store, req: CreateSessionRequest, clk: CreateReadings)
    requires CreateSessionErrors(req) == []
    ensures CreateSession(st, req, clk).result.Ok?
  {
    CreateSessionValidity(req);
  }

  // ---------- renameSession ----------

  /** Replaces the title of an existing session and returns it as it is
      before the commit: the service leaves `updatedAt` alone. When the
      title really changed, the update flushed at commit restamps
      `updatedAt` through the entity's generator, `lag` after the next
      instant; an unchanged title leaves the row clean, so no update runs
      and nothing is restamped. */
  function RenameSession(st: Store, id: Uuid, req: RenameSessionRequest, lag: nat): (o: Outcome<SessionResponse>)
    ensures o.result.Err? ==> o.store == st
    ensures id !in st.sessions <==> o.result == Err(SessionNotFoundWithId(id))
    ensures id in st.sessions && req.title.None? ==> o.result == Err(SessionNotNullViolation)
    ensures Valid(st) && id in st.sessions && req.title.Some? ==> o.result.Ok?
    ensures o.result.Ok? ==>
      && id in st.sessions && id in o.store.sessions
      && o.result.value == SessionToResponse(st.sessions[id].(title := req.title))
      && (req.title == st.sessions[id].title ==> o.store == st)
      && (req.title != st.sessions[id].title ==>
            && o.store.sessions[id] == st.sessions[id].(title := req.title, updatedAt := o.store.clock)
            && o.store.clock == st.clock + 1 + lag)
      && OtherSessionsKept(st, o.store, id)
      && o.store.sessions.Keys == st.sessions.Keys
      && o.store.messages == st.messages && o.store.nextId == st.nextId
    ensures Valid(st) ==> Valid(o.store)
  {
    if id !in st.sessions then Outcome(st, Err(SessionNotFoundWithId(id)))
    else
      var session := UpdateTitleFromRequest(req, st.sessions[id]);
      if !SessionInsertable(session) then Outcome(st, Err(SessionNotNullViolation))
      else if session == st.sessions[id] then Outcome(st, Ok(SessionToResponse(session)))
      else
        var stamp := st.clock + 1 + lag;
        var row := session.(updatedAt := stamp);
        Outcome(st.(sessions := st.sessions[id := row], clock := stamp), Ok(SessionToResponse(session)))
  }

  // ---------- deleteSession ----------

  /** Removes the session and, by the cascade, its whole thread. */
  function DeleteSession(st: Store, id: Uuid): (o: Outcome<()>)
    ensures id !in st.sessions <==> o.result.Err?
    ensures o.result.Err? ==> o.store == st && o.result.error == ChatSessionNotFoundWithId(id)
    ensures o.result.Ok? ==>
      && id !in o.store.sessions && id !in o.store.messages
      && o.store.sessions.Keys == st.sessions.Keys - {id}
      && OtherSessionsKept(st, o.store, id)
      && (forall k :: k in st.messages && k != id ==> k in o.store.messages && o.store.messages[k] == st.messages[k])
      && o.store.nextId == st.nextId
    ensures Valid(st) ==> Valid(o.store)
  {
    if id !in st.sessions then Outcome(st, Err(ChatSessionNotFoundWithId(id)))
    else Outcome(st.(sessions := st.sessions - {id}, messages := st.messages - {id}), Ok(()))
  }

  // ---------- toggleFavorite ----------

  /** Sets (does not flip) the flag, stamps `updatedAt` with the next
      instant and returns the session so. The update flushed at commit
      stamps `updatedAt` again through the entity's generator, `lag`
      later, and that is what the row keeps. An unknown id throws the
      other not-found kind. */
  function ToggleFavorite(st: Store, id: Uuid, req: ToggleFavoriteRequest, lag: nat): (o: Outcome<SessionResponse>)
    ensures id !in st.sessions <==> o.result.Err?
    ensures o.result.Err? ==>
      o.store == st && o.result.error == ResourceNotFound("Session not found with ID: " + NatText(id))
    ensures o.result.Ok? ==>
      && id in st.sessions && id in o.store.sessions
      && o.store.sessions[id] == st.sessions[id].(favorite := req.favorite, updatedAt := o.store.clock)
      && o.result.value == SessionToResponse(o.store.sessions[id]).(updatedAt := o.result.value.updatedAt)
      && st.clock < o.result.value.updatedAt && o.store.clock == o.result.value.updatedAt + lag
      && OtherSessionsKept(st, o.store, id)
      && o.store.sessions.Keys == st.sessions.Keys && o.store.messages == st.messages
    ensures Valid(st) ==> Valid(o.store)
  {
    if id !in st.sessions then
      Outcome(st, Err(ResourceNotFound("Session not found with ID: " + NatText(id))))
    else
      var now := st.clock + 1;
      var session := UpdateFavoriteFromRequest(req, st.sessions[id]).(updatedAt := now);
      var row := session.(updatedAt := now + lag);
      Outcome(st.(sessions := st.sessions[id := row], clock := row.updatedAt), Ok(SessionToResponse(session)))
  }

  /** Setting the same flag twice leaves the flag where the first call put
      it; only `updatedAt` moves again. */
  lemma ToggleFavoriteIdempotentOnFlag(st: Store, id: Uuid, req: ToggleFavoriteRequest, lag1: nat, lag2: nat)
    requires id in st.sessions
    ensures var o1 := ToggleFavorite(st, id, req, lag1);
      var o2 := ToggleFavorite(o1.store, id, req, lag2);
      && o2.result.Ok?
      && o2.store.sessions[id] == o1.store.sessions[id].(updatedAt := o2.store.clock)
      && o2.result.value.favorite == o1.result.value.favorite == req.favorite
  {
  }

  // ---------- getSessionById ----------

  /** Read-only lookup. */
  function GetSessionById(st: Store, id: Uuid): Result<SessionResponse, ServiceError>
  {
    if id in st.sessions then Ok(SessionToResponse(st.sessions[id])) else Err(SessionNotFoundWithId(id))
  }

  /** In a consistent store the lookup by id agrees with the full listing:
      it succeeds exactly when some listed session carries that id, and
      then returns that listed session; otherwise it reports the id as not
      found. */
  lemma SessionLookupAgreesWithListing(st: Store, id: Uuid)
    requires Valid(st)
    ensures var read := GetSessionById(st, id);
      && (read.Ok? <==> exists x :: x in MatchingResponses(st, None) && x.id == Some(id))
      && (read.Ok? ==> read.value in MatchingResponses(st, None) && read.value.id == Some(id))
      && (read.Err? ==> read.error == SessionNotFoundWithId(id))
  {
    if x :| x in MatchingResponses(st, None) && x.id == Some(id) {
      var s :| s in Matching(st, None) && x == SessionToResponse(s);
      var k :| k in st.sessions && OwnedBy(None, st.sessions[k]) && s == st.sessions[k];
      assert SessionRowOk(st, k);
    }
    if id in st.sessions {
      assert SessionRowOk(st, id);
      assert st.sessions[id] in Matching(st, None);
    }
  }

  /** Reading a freshly created session back by its new id shows what the
      create call returned, with the commit-time timestamps; no other
      session reads differently. */
  lemma CreatedSessionReadsBack(st: Store, req: CreateSessionRequest, clk: CreateReadings)
    ensures var o := CreateSession(st, req, clk);
      o.result.Ok? ==>
        var read := GetSessionById(o.store, o.result.value.id.value);
        && read.Ok? && SessionRestamped(read.value, o.result.value)
        && read.value.updatedAt == o.store.clock
        && forall k :: k != o.result.value.id.value ==> GetSessionById(o.store, k) == GetSessionById(st, k)
  {
  }

  /** After a rename, reading the session back shows the rename's response
      with the new title, every field but `updatedAt` untouched; in a
      consistent store `updatedAt` moves forward exactly when the title
      changed. A failed rename changes no read. */
  lemma RenamedSessionReadsBack(st: Store, id: Uuid, req: RenameSessionRequest, lag: nat)
    ensures var o := RenameSession(st, id, req, lag);
      && (o.result.Ok? ==>
            var read := GetSessionById(o.store, id);
            && read.Ok? && read.value == o.result.value.(updatedAt := read.value.updatedAt)
            && read.value.title == req.title
            && (Valid(st) ==>
                  && SessionRestamped(read.value, o.result.value)
                  && (read.value.updatedAt == o.result.value.updatedAt <==> req.title == st.sessions[id].title)))
      && (o.result.Err? ==> GetSessionById(o.store, id) == GetSessionById(st, id))
      && forall k :: k != id ==> GetSessionById(o.store, k) == GetSessionById(st, k)
  {
    if Valid(st) && id in st.sessions {
      assert SessionRowOk(st, id);
    }
  }

  /** In a consistent store, a rename that changes the title makes the
      session the most recently updated one, so it heads the listings. */
  lemma RetitledSessionHeadsListings(st: Store, id: Uuid, req: RenameSessionRequest, lag: nat)
    requires Valid(st)
    ensures var o := RenameSession(st, id, req, lag);
      o.result.Ok? && req.title != st.sessions[id].title ==>
        forall k :: k in o.store.sessions ==> o.store.sessions[k].updatedAt <= o.store.sessions[id].updatedAt
  {
    var o := RenameSession(st, id, req, lag);
    if o.result.Ok? && req.title != st.sessions[id].title {
      forall k | k in o.store.sessions ensures o.store.sessions[k].updatedAt <= o.store.sessions[id].updatedAt {
        assert SessionRowOk(st, k);
      }
    }
  }

  /** After setting the flag, reading the session back shows the call's
      response with the requested flag and `updatedAt` stamped `lag` after
      the returned one. An unknown id changes no read. */
  lemma ToggledSessionReadsBack(st: Store, id: Uuid, req: ToggleFavoriteRequest, lag: nat)
    ensures var o := ToggleFavorite(st, id, req, lag);
      && (o.result.Ok? ==>
            var read := GetSessionById(o.store, id);
            && read.Ok? && SessionRestamped(read.value, o.result.value)
            && read.value.favorite == req.favorite
            && read.value.updatedAt == o.result.value.updatedAt + lag)
      && (o.result.Err? ==> GetSessionById(o.store, id) == GetSessionById(st, id))
      && forall k :: k != id ==> GetSessionById(o.store, k) == GetSessionById(st, k)
  {
  }

  /** Once deleted, a session cannot be read back, and its id is never
      handed to a later session. */
  lemma DeletedSessionIsGone(st: Store, id: Uuid, req: CreateSessionRequest, clk: CreateReadings)
    requires Valid(st) && id in st.sessions
    ensures var st' := DeleteSession(st, id).store;
      && GetSessionById(st', id) == Err(SessionNotFoundWithId(id))
      && DeleteSession(st', id).result.Err?
      && (CreateSession(st', req, clk).result.Ok? ==> CreateSession(st', req, clk).result.value.id != Some(id))
  {
    assert SessionRowOk(st, id);
  }

  // ---------- getSessionsForUser / getAllSessions ----------

  /** `owner` filters by `userId`; `None` keeps every session. */
  predicate OwnedBy(owner: Option<string>, s: Session)
  {
    owner.None? || s.userId == owner
  }

  /** The stored sessions a listing must contain. */
  function Matching(st: Store, owner: Option<string>): set<Session>
  {
    set k | k in st.sessions && OwnedBy(owner, st.sessions[k]) :: st.sessions[k]
  }

  predicate UpdatedDescending(ss: seq<Session>)
  {
    forall i, j :: 0 <= i < j < |ss| ==> ss[i].updatedAt >= ss[j].updatedAt
  }

  predicate Distinct<T(==)>(xs: seq<T>)
  {
    forall i, j :: 0 <= i < j < |xs| ==> xs[i] != xs[j]
  }

  /** Inserts `s` after every session updated at or after it. */
  function InsertByUpdated(ss: seq<Session>, s: Session): (r: seq<Session>)
    ensures |r| == |ss| + 1
    ensures forall x :: x in r <==> x in ss || x == s
    ensures UpdatedDescending(ss) ==> UpdatedDescending(r)
    ensures Distinct(ss) && s !in ss ==> Distinct(r)
  {
    if ss == [] then [s]
    else if ss[0].updatedAt < s.updatedAt then [s] + ss
    else
      var rest := InsertByUpdated(ss[1..], s);
      assert forall x :: x in ss <==> x == ss[0] || x in ss[1..];
      assert UpdatedDescending(ss) ==> forall j :: 0 <= j < |rest| ==> rest[j].updatedAt <= ss[0].updatedAt by {
        if UpdatedDescending(ss) {
          forall j | 0 <= j < |rest| ensures rest[j].updatedAt <= ss[0].updatedAt {
            assert rest[j] in rest;
            if rest[j] != s {
              var i :| 0 <= i < |ss[1..]| && ss[1..][i] == rest[j];
              assert ss[i + 1] == rest[j];
            }
          }
        }
      }
      assert Distinct(ss) && s !in ss ==> ss[0] !in rest by {
        if Distinct(ss) && s !in ss {
          forall i | 0 <= i < |ss[1..]| ensures ss[1..][i] != ss[0] {
            assert ss[1..][i] == ss[i + 1];
          }
        }
      }
      [ss[0]] + rest
  }

  /** The repository queries `findByUserIdOrderByUpdatedAtDesc` (with an
      owner) and `findAllByOrderByUpdatedAtDesc` (without): every matching
      session once, most recently updated first. Sessions with equal
      `updatedAt` come in no promised order. */
  method FindSessions(st: Store, owner: Option<string>) returns (r: seq<Session>)
    ensures forall s :: s in r <==> s in Matching(st, owner)
    ensures Distinct(r)
    ensures UpdatedDescending(r)
  {
    r := [];
    var todo := Matching(st, owner);
    while todo != {}
      invariant todo <= Matching(st, owner)
      invariant forall s :: s in r <==> s in Matching(st, owner) - todo
      invariant Distinct(r) && UpdatedDescending(r)
      decreases |todo|
    {
      var s :| s in todo;
      r := InsertByUpdated(r, s);
      todo := todo - {s};
    }
  }

  /** The responses a listing must contain. */
  function MatchingResponses(st: Store, owner: Option<string>): set<SessionResponse>
  {
    set s | s in Matching(st, owner) :: SessionToResponse(s)
  }

  predicate ResponsesDescending(rs: seq<SessionResponse>)
  {
    forall i, j :: 0 <= i < j < |rs| ==> rs[i].updatedAt >= rs[j].updatedAt
  }

  /** A listing maps the found sessions one by one. */
  method ListSessions(st: Store, owner: Option<string>) returns (r: seq<SessionResponse>)
    ensures forall x :: x in r <==> x in MatchingResponses(st, owner)
    ensures Distinct(r)
    ensures ResponsesDescending(r)
  {
    var found := FindSessions(st, owner);
    r := SessionToResponseList(found);
    forall x | x in MatchingResponses(st, owner) ensures x in r {
      var s :| s in Matching(st, owner) && x == SessionToResponse(s);
      var i :| 0 <= i < |found| && found[i] == s;
      assert r[i] == x;
    }
    forall i, j | 0 <= i < j < |r| ensures r[i] != r[j] {
      SessionToResponseInjective(found[i], found[j]);
    }
  }

  /** The sessions of one owner, most recently updated first. */
  method GetSessionsForUser(st: Store, userId: string) returns (r: seq<SessionResponse>)
    ensures forall x :: x in r <==> x in MatchingResponses(st, Some(userId))
    ensures forall i :: 0 <= i < |r| ==> r[i].userId == Some(userId)
    ensures Distinct(r)
    ensures ResponsesDescending(r)
  {
    r := ListSessions(st, Some(userId));
    forall i | 0 <= i < |r| ensures r[i].userId == Some(userId) {
      assert r[i] in MatchingResponses(st, Some(userId));
    }
  }

  /** Every session, most recently updated first. */
  method GetAllSessions(st: Store) returns (r: seq<SessionResponse>)
    ensures forall k :: k in st.sessions ==> SessionToResponse(st.sessions[k]) in r
    ensures forall x :: x in r <==> x in MatchingResponses(st, None)
    ensures Distinct(r)
    ensures ResponsesDescending(r)
  {
    r := ListSessions(st, None);
    forall k | k in st.sessions ensures SessionToResponse(st.sessions[k]) in r {
      assert st.sessions[k] in Matching(st, None);
    }
  }

  // ---------- The create / favorite / rename scenario ----------

  /** Create "Demo" for "u1", mark it a favorite and read it back: the flag
      reads back true with an `updatedAt` later than the creation instant.
      Rename it "Demo2": the owner's listing holds exactly that one
      session, titled "Demo2". Whatever the clock does in between. */
  lemma DemoScenario(clk: CreateReadings, toggleLag: nat, renameLag: nat)
    ensures
      var o1 := CreateSession(Empty, CreateSessionRequest(Some("u1"), Some("Demo")), clk);
      && o1.result.Ok? && !o1.result.value.favorite
      && var id := o1.result.value.id.value;
      var o2 := ToggleFavorite(o1.store, id, ToggleFavoriteRequest(true), toggleLag);
      var read := GetSessionById(o2.store, id);
      && read.Ok? && read.value.favorite
      && read.value.updatedAt > o1.result.value.createdAt
      && var o3 := RenameSession(o2.store, id, RenameSessionRequest(Some("Demo2")), renameLag);
      && o3.result.Ok?
      && var listed := GetSessionById(o3.store, id);
      && listed.Ok?
      && MatchingResponses(o3.store, Some("u1")) == {listed.value}
      && listed.value.title == Some("Demo2")
  {
    var o1 := CreateSession(Empty, CreateSessionRequest(Some("u1"), Some("Demo")), clk);
    var id := o1.result.value.id.value;
    var o2 := ToggleFavorite(o1.store, id, ToggleFavoriteRequest(true), toggleLag);
    ToggledSessionReadsBack(o1.store, id, ToggleFavoriteRequest(true), toggleLag);
    assert o2.store.sessions[id].title == Some("Demo");
    assert Some("Demo") != Some("Demo2") by { assert |"Demo"| != |"Demo2"|; }
    var o3 := RenameSession(o2.store, id, RenameSessionRequest(Some("Demo2")), renameLag);
    assert o3.store.sessions.Keys == {id};
    assert Matching(o3.store, Some("u1")) == {o3.store.sessions[id]};
  }
}

=== FILE: storage_guard.dfy ===
/** The storage tier's internal-key filter: requests under "/api/" must
    carry the key the gateway injects, and are then authenticated as the
    gateway; everything else passes untouched. */
module StorageGuard {

  import opened Wrappers
  import opened Text
  import opened Http

  const ProtectedPrefix: string := "/api/"
  const Forbidden: int := 403
  const ForbiddenBody: string := "Forbidden: Invalid internal key"

  /** The authentication placed in the security context. */
  datatype Principal = Principal(name: string, authorities: seq<string>)

  const GatewayPrincipal: Principal := Principal("gateway", ["ROLE_INTERNAL"])

  /** Either the chain continues, with the authentication the filter set
      (none when it set nothing), or the filter answered itself. */
  datatype GuardResult =
    | Proceed(principal: Option<Principal>)
    | Reject(status: int, body: string)

  predicate Protected(path: string)
  {
    StartsWith(path, ProtectedPrefix)
  }

  /** `getHeader` yields the first value, so only that one is compared. */
  predicate KeyMatches(internalKey: string, req: Request)
  {
    GetFirst(req.headers, InternalKeyHeader) == Some(internalKey)
  }

  function Guard(internalKey: string, req: Request): (r: GuardResult)
    ensures r.Proceed? <==> !Protected(req.path) || KeyMatches(internalKey, req)
    ensures r.Reject? ==> r.status == Forbidden && r.body == ForbiddenBody
    ensures r.Proceed? ==> (r.principal.Some? <==> Protected(req.path))
    ensures r.Proceed? && r.principal.Some? ==> r.principal.value == GatewayPrincipal
  {
    if Protected(req.path) then
      var provided := GetFirst(req.headers, InternalKeyHeader);
      if provided != Some(internalKey) then Reject(Forbidden, ForbiddenBody)
      else Proceed(Some(GatewayPrincipal))
    else
      Proceed(None)
  }

  /** The guard looks only at the path and the first internal-key value:
      two requests that agree on those are treated alike. */
  lemma GuardSeesOnlyPathAndFirstKey(internalKey: string, a: Request, b: Request)
    requires a.path == b.path
    requires GetFirst(a.headers, InternalKeyHeader) == GetFirst(b.headers, InternalKeyHeader)
    ensures Guard(internalKey, a) == Guard(internalKey, b)
  {
  }
}

=== FILE: store.dfy ===
/** The persistent state of the chat-storage service, abstracted from its
    two tables: the sessions by id, and for each session the messages that
    reference it in insertion order. The clock and the id generator are part
    of the state: `clock` is the last instant handed out and `nextId` the
    next fresh identifier, so identifiers never repeat and every write
    reads an instant later than all earlier ones. */
module Store {

  import opened Wrappers
  import opened Entities
  import opened Errors

  datatype Store = Store(
    sessions: map<Uuid, Session>,
    messages: map<Uuid, seq<Message>>,
    nextId: Uuid,
    clock: Instant
  )

  /** The database before anything is stored. */
  const Empty: Store := Store(map[], map[], 0, 0)

  /** What a service call leaves behind: the store after the transaction
      (the old one when it rolled back) and what the call returned or
      threw. */
  datatype Outcome<T> = Outcome(store: Store, result: Result<T, ServiceError>)

  /** Messages in non-decreasing creation order. */
  predicate CreatedAscending(ms: seq<Message>)
  {
    forall i, j :: 0 <= i < j < |ms| ==> ms[i].createdAt <= ms[j].createdAt
  }

  /** The stored session under key `k` is a well-formed row. */
  predicate SessionRowOk(st: Store, k: Uuid)
    requires k in st.sessions
  {
    var s := st.sessions[k];
    && s.id == Some(k) && k < st.nextId
    && SessionInsertable(s)
    && s.createdAt <= s.updatedAt <= st.clock
  }

  /** Every message stored under key `k` is a well-formed row that
      references session `k`, and the thread is in creation order. */
  predicate ThreadOk(st: Store, k: Uuid)
    requires k in st.messages
  {
    var ms := st.messages[k];
    && CreatedAscending(ms)
    && forall i :: 0 <= i < |ms| ==>
         && ms[i].sessionId == Some(k)
         && ms[i].id.Some? && ms[i].id.value < st.nextId
         && MessageInsertable(ms[i])
         && ms[i].createdAt <= st.clock
  }

  /** The integrity the schema and the transactions maintain together:
      every message's session exists (and every session has a thread, maybe
      empty), rows satisfy their constraints, identifiers and instants come
      from the past. */
  predicate Valid(st: Store)
  {
    && st.sessions.Keys == st.messages.Keys
    && (forall k :: k in st.sessions ==> SessionRowOk(st, k))
    && (forall k :: k in st.messages ==> ThreadOk(st, k))
  }

  /** The empty database is consistent. */
  lemma EmptyValid()
    ensures Valid(Empty)
  {
  }

  /** The messages of session `k` as the repository query sees them. */
  function Thread(st: Store, k: Uuid): seq<Message>
  {
    if k in st.messages then st.messages[k] else []
  }
}

=== FILE: text.dfy ===
/** Java string predicates the core relies on. A Dafny `char` stands for one
    Java `char`; code points outside the Basic Multilingual Plane are not
    distinguished from single code units. */
module Text {

  import opened Wrappers

  /** `Character.isWhitespace`: the Unicode space, line and paragraph
      separators except the three no-break spaces (U+00A0, U+2007, U+202F),
      plus the ASCII controls TAB, LF, VT, FF, CR and U+001C..U+001F. */
  predicate IsJavaWhitespace(c: char)
  {
    || c == ' ' || c == '\t' || c == '\n' || c == '\U{000B}' || c == '\U{000C}' || c == '\r'
    || ('\U{001C}' <= c <= '\U{001F}')
    || c == '\U{1680}'
    || ('\U{2000}' <= c <= '\U{2006}') || ('\U{2008}' <= c <= '\U{200A}')
    || c == '\U{2028}' || c == '\U{2029}' || c == '\U{205F}' || c == '\U{3000}'
  }

  /** `String.isBlank()`: empty, or white space (as `Character.isWhitespace`)
      throughout. */
  predicate IsBlank(s: string)
  {
    forall i :: 0 <= i < |s| ==> IsJavaWhitespace(s[i])
  }

  /** `String.trim()` strips every leading and trailing char whose code is at
      most U+0020, so `s.trim().length() == 0` holds exactly when every char
      of `s` is at most U+0020. This is the test Bean Validation's
      `@NotBlank` applies. */
  predicate TrimsToEmpty(s: string)
  {
    forall i :: 0 <= i < |s| ==> s[i] <= ' '
  }

  /** `@NotBlank` on a nullable string: not null, and not empty after trim. */
  predicate NotBlank(s: Option<string>)
  {
    s.Some? && !TrimsToEmpty(s.value)
  }

  /** `@Size(max = n)`: null is valid; otherwise at most `n` chars. */
  predicate SizeAtMost(s: Option<string>, n: nat)
  {
    s.None? || |s.value| <= n
  }

  /** `String.startsWith`. */
  predicate StartsWith(s: string, prefix: string)
  {
    |prefix| <= |s| && s[..|prefix|] == prefix
  }

  /** A prefix of a prefix is a prefix. */
  lemma StartsWithTransitive(s: string, p: string, q: string)
    requires StartsWith(s, p) && StartsWith(p, q)
    ensures StartsWith(s, q)
  {
    assert s[..|q|] == p[..|q|];
  }

  /** Decimal rendering of a natural number, most significant digit first. */
  function NatText(n: nat): (r: string)
    ensures |r| >= 1
    ensures forall i :: 0 <= i < |r| ==> '0' <= r[i] <= '9'
  {
    var d := ['0' + (n % 10) as char];
    if n < 10 then d else NatText(n / 10) + d
  }

  /** ASCII lower-casing of one character. */
  function LowerChar(c: char): char
  {
    if 'A' <= c <= 'Z' then c - 'A' + 'a' else c
  }

  /** ASCII lower-casing, the case folding HTTP header names are compared
      under. */
  function LowerAscii(s: string): string
  {
    seq(|s|, i requires 0 <= i < |s| => LowerChar(s[i]))
  }

}

=== FILE: wrappers.dfy ===
/** Wrappers: a nullable reference is an `Option`, and an
    operation that may throw is a `Result` whose error is the thrown kind. */
module Wrappers {

  /** A Java reference that may be `null`. */
  datatype Option<+T> = None | Some(value: T) {

    /** The wrapped value, or `default` when it is `null`. */
    function GetOr(default: T): T
    {
      match this
      case Some(v) => v
      case None => default
    }
  }

  /** The outcome of a call that either returns a value or throws. */
  datatype Result<+T, +E> = Ok(value: T) | Err(error: E)
}
